=== FILE: README.md ===
# Chess move legality and turn controller, in Dafny

A model of the move-legality engine and the turn controller of a small
two-player Swing chess board (package `com.kern`). Every piece kind
decides in `canMove` whether it may go from its origin square
(`preColumn`, `preRow`) to a target square. As a side effect it records
the piece it would capture (`hittinPiece`) and, for the king's castling,
the rook to relocate (`GamePanel.castlingPiece`). The controller
(`GamePanel`) does the following on each frame:

- picks a piece up on a press;
- simulates the dragged move against a working list `simPieces`;
- on release, commits that list into `pieces` or cancels the move;
- relocates a castling rook, passes the turn, and handles pawn promotion.

The model is functional:

- **Pieces.** A piece is an immutable `Piece` record. It carries an `id`
  that stands for Java object identity, so "not this piece" is
  `id != me.id`.
- **Boards.** A board is a `seq<Piece>` in list order. The source's scans
  are first-match loops over that list.
- **Verdicts.** Each `canMove` returns a `Verdict`: the boolean, the
  capture left in `hittinPiece`, and any castling partner, all as ids.
  Values a call does not overwrite are passed through from the mover, so
  stale captures behave as in the source.
- **Controller state.** The controller's `Game` keeps every piece in a
  `heap` keyed by id, and `pieces` and `simPieces` as lists of ids. A
  change to a piece is therefore seen through both lists, as with Java's
  shared objects.

The legal/illegal answer of every per-kind `canMove` is proved equal to
a declarative rule (module `Rules`) written with quantifiers over the
board. These rules cover shape, bounds, a clear path strictly between
origin and target, and a usable destination. The capture each verdict
records is stated branch by branch, for refused moves as well as legal
ones. For the rook, bishop, queen and knight a wrong shape keeps the
previous capture, an own occupant clears it, and a blocked path records
a piece on the path. The pawn is the exception: on every on-board target
other than its origin it overwrites the capture with the first other
piece on the target, even a sideways target or an own piece straight
ahead, or with the blocker of a blocked two-step. The king's rule is stated in `KingFacts`, and its
enemy sweep is proved to mean "every enemy refuses the target". Lemmas
in `Legality` derive the blocking, bounds, direction and frame
properties from those rules. Lemmas in `Scenarios` pin down concrete
positions.

Modules: `Base` (option, absolute value), `Geometry` (pixels and
squares), `Pieces` (the piece record and shared predicates), `Paths`
(path scans), `Rules` (reference definitions), `Moves` (per-kind
`canMove`), `KingFacts`, `Legality`, `Setup` (initial layout),
`Controller` (the `GamePanel` steps) and `Scenarios`.

The model follows the code, including where it departs from what the
rules of chess or the source's own comments lead one to expect:

- **Same-colour occupancy does not always block.** King castling never
  inspects the target square. The pawn's en-passant branch inspects
  neither the target nor the victim's colour.
- **The recorded capture is not always an enemy.**
  - A path scan that finds a blocker stores it, whatever its colour.
  - Castling returns whatever capture the king held before.
  - En passant stores any double-stepped piece beside the pawn.
- **`canMove` can fail.** A king's enemy sweep asks every enemy piece,
  the other king included. When the other king's own sweep reaches the
  first king before any attacker, the two sweeps call each other without
  end (a stack overflow in the source). The model bounds the nesting with
  a `fuel` parameter; `None` means the nesting went deeper than the fuel.
  More fuel never changes a verdict once one is reached, and when the
  mover has no enemy king one unit of fuel always gives a verdict.
- **Castling checks less of the path than the castling rule requires.** King-side
  castling checks only the square strictly between the king and its
  target. Queen-side castling also relies on the list order of the
  pieces three and four columns away.

Behaviours of the code made explicit by the scenario lemmas:

- **A king can castle onto an occupied square.**
- **A pawn can take en passant onto its own piece.**
- **A stale capture can remove the king's own bishop.** A castling
  attempt blocked by the king's own bishop leaves that bishop as the
  king's recorded capture. A later castling frame returns that stale
  capture, and the frame removes the bishop from the working list.
- **A quick click passes the turn.** `validSequare` is reset only inside
  `simulate`, so after any committed move it stays true. A press that
  picks a piece up, followed at once by a release with no frame in
  between, commits the piece where it stands, marks it moved, and
  passes the turn.

## Model

| member | source | states |
|---|---|---|
| Geometry.SnapRoundTrip | java/src/main/java/com/kern/Piece/Piece.java:46-60 | snapping the pixel position of any non-negative index gives the index back |
| Geometry.SnapNegativeIndex | java/src/main/java/com/kern/Piece/Piece.java:54-60 | on a negative index Java's truncating division makes the snap land one square toward zero |
| Geometry.SnapWindow | java/src/main/java/com/kern/Piece/Piece.java:54-60 | for pixels from -40 on, a pixel snaps to index c exactly when it lies in [80c-40, 80c+40) |
| Geometry.SnapOnBoard | java/src/main/java/com/kern/Piece/Piece.java:54-60 | a snapped pixel is a board index exactly for pixels in (-120, 600); truncation widens the first column |
| Geometry.JavaDiv | java/src/main/java/com/kern/Piece/Piece.java:55 | the quotient of Java's `/` by a positive divisor lies within one divisor of the dividend, rounded toward zero |
| Geometry.ToPixel | java/src/main/java/com/kern/Piece/Piece.java:46-52 | the pixel position of a non-negative index snaps back to that index |
| Geometry.ToIndex | java/src/main/java/com/kern/Piece/Piece.java:54-60 | for pixels from -40 on, the snapped index is the square whose centre is nearest, ties going right |
| Geometry.IsWithinBoard | java/src/main/java/com/kern/Piece/Piece.java:123-129 | a square is on the board exactly when both indices lie in 0..7 (the reference predicate every move rule uses) |
| Pieces.IsSameSquare | java/src/main/java/com/kern/Piece/Piece.java:116-121 | the target is the origin square (the reference predicate the entry test uses) |
| Pieces.GetX | java/src/main/java/com/kern/Piece/Piece.java:46-48 | the pixel column of a non-negative own column snaps back to that column |
| Pieces.GetXIgnoresArgument | java/src/main/java/com/kern/Piece/Piece.java:46-48 | `getX` gives the same pixel whatever column is passed |
| Pieces.GetY | java/src/main/java/com/kern/Piece/Piece.java:50-52 | the pixel row of a non-negative row snaps back to that row |
| Pieces.GetHittingPiece | java/src/main/java/com/kern/Piece/Piece.java:66-76 | the result is the first piece in list order other than the mover standing on the target; it is absent exactly when no other piece stands there |
| Pieces.IsValidSquare | java/src/main/java/com/kern/Piece/Piece.java:98-114 | three outcomes: empty target gives true with no capture; an enemy gives true and records it; an own piece gives false and clears the capture |
| Pieces.OwnOccupantRefused | java/src/main/java/com/kern/Piece/Piece.java:98-114 | if every other occupant of the target has the mover's colour, the square is refused |
| Pieces.UpdatePosition | java/src/main/java/com/kern/Piece/Piece.java:78-92 | commit makes the current square the origin, sets the moved flag, sets the double-step flag exactly for a pawn that moved two rows, and changes nothing else |
| Pieces.ResetPosition | java/src/main/java/com/kern/Piece/Piece.java:131-136 | cancel puts the piece back on its origin and changes nothing else |
| Pieces.Drag | java/src/main/java/com/kern/GUI/GamePanel.java:287-291 | a dragged piece stands on the given square with its origin and flags unchanged |
| Pieces.DragThenResetRestores | java/src/main/java/com/kern/Piece/Piece.java:131-136 | cancelling a drag of a resting piece restores it exactly |
| Pieces.DragThenCommit | java/src/main/java/com/kern/Piece/Piece.java:78-92 | committing a drag onto a board square makes that square the origin |
| Pieces.GetIndex | java/src/main/java/com/kern/Piece/Piece.java:138-145 | the first position of the piece in the list, or 0 when it is absent |
| Paths.StraightSquaresExact | java/src/main/java/com/kern/Piece/Piece.java:147-189 | the four directional loops visit exactly the squares strictly between origin and target on the target's row or column |
| Paths.DiagonalSquaresExact | java/src/main/java/com/kern/Piece/Piece.java:191-240 | the diagonal loops visit exactly the squares between, in the direction chosen by the sign of the row delta |
| Paths.DiagonalBetweenIsGeometric | java/src/main/java/com/kern/Piece/Piece.java:191-240 | on a true diagonal move those squares are exactly the squares strictly between origin and target on that diagonal |
| Paths.FirstOnSquares | java/src/main/java/com/kern/Piece/Piece.java:149-156 | square by square, a piece found stands on one of the squares, and none is found only when no piece stands on any |
| Paths.ScanStraight | java/src/main/java/com/kern/Piece/Piece.java:147-189 | returns true exactly when some piece stands strictly between, and then records such a piece |
| Paths.ScanDiagonal | java/src/main/java/com/kern/Piece/Piece.java:191-240 | the same for the diagonal scan |
| Moves.RookMove | java/src/main/java/com/kern/Piece/Rook.java:21-31 | legal exactly under the rook rule (on board, not the origin, row or column, usable target, clear path); exactly one coordinate changes; the capture is none or the first enemy on the target. A refusal keeps the previous capture off the board or on a wrong shape, clears it on an own occupant, and records a piece on the path when the path is blocked |
| Moves.BishopMove | java/src/main/java/com/kern/Piece/Bishop.java:21-31 | legal exactly under the bishop rule; a legal move has equal non-zero deltas; capture on a legal move and on each kind of refusal as for the rook, with the diagonal path |
| Moves.QueenMove | java/src/main/java/com/kern/Piece/Queen.java:21-40 | legal exactly when rook-shaped with a clear straight path or bishop-shaped with a clear diagonal, onto a usable square; on a rook-shaped target the verdict is the rook's, otherwise the bishop's, so the refusal captures are theirs; a target of neither shape keeps the previous capture |
| Moves.KnightMove | java/src/main/java/com/kern/Piece/Knight.java:21-30 | legal exactly when on board, the delta product is 2 and the target is usable; never the origin; a legal move records the first enemy on the target; off the board or on a wrong shape the previous capture is kept; an own occupant clears it |
| Moves.FirstEnPassant | java/src/main/java/com/kern/Piece/Pawn.java:61-68 | the first piece in list order with the double-step flag on the given square, or none when there is none |
| Moves.PawnMove | java/src/main/java/com/kern/Piece/Pawn.java:21-72 | legal exactly under the four-branch pawn rule; a straight move captures nothing; a diagonal move onto an enemy records it; otherwise it records the first double-stepped piece beside the origin. A refused move records the first other piece on the target, or, for a blocked two-step, a piece on the path; off the board the previous capture is kept |
| Moves.KingSidePartner | java/src/main/java/com/kern/Piece/King.java:44-51 | the first unmoved piece three columns right of the king's origin, or none |
| Moves.QueenSideScanFindsFirst | java/src/main/java/com/kern/Piece/King.java:58-71 | the two-slot list loop finds the first unmoved piece four columns left that is met before any piece three columns left |
| Moves.Castle | java/src/main/java/com/kern/Piece/King.java:38-73 | legal exactly under the castling rule; a legal castling names the first matching rook as partner; a castling-shaped attempt with a blocked path is refused and records a piece on the path; in every other case the king's previous capture is kept |
| Moves.CanMove | java/src/main/java/com/kern/Piece/Piece.java:94-96 | every kind but the king always answers, with no castling partner; a legal answer is always a square on the board |
| Moves.KingMove | java/src/main/java/com/kern/Piece/King.java:21-76 | a legal king verdict is always a square on the board |
| Moves.Attacked | java/src/main/java/com/kern/Piece/King.java:27-33 | "attacked" needs an enemy piece in the swept part of the list; a part holding no enemy is safe |
| KingFacts.AttackedMeaning | java/src/main/java/com/kern/Piece/King.java:28-34 | the enemy sweep answers "safe" exactly when every enemy refuses the target, "attacked" only if some enemy's verdict is legal, and no answer only if some enemy's own verdict ran out of fuel |
| KingFacts.KingMoveMeaning | java/src/main/java/com/kern/Piece/King.java:21-76 | the king is legal exactly for a safe one-square step onto a usable square or a castling move; a step onto an own piece is refused with no capture; any other answered step records the first enemy on the target; a non-step target gets the castling verdict with the old capture; no verdict only on an overflowing step |
| KingFacts.CanMoveFuelMonotone | java/src/main/java/com/kern/Piece/King.java:27-33 | a verdict reached with some fuel is the verdict reached with any larger fuel |
| KingFacts.AttackedFuelMonotone | java/src/main/java/com/kern/Piece/King.java:27-33 | the enemy sweep's answer, once reached, does not change with more fuel |
| KingFacts.NoEnemyKingDecides | java/src/main/java/com/kern/Piece/King.java:27-33 | when no enemy of the mover is a king, one unit of fuel always gives a verdict |
| Legality.OffBoardNeverLegal | java/src/main/java/com/kern/Piece/Piece.java:123-129 | no piece kind may move off the board, and the refusal keeps the previous capture |
| Legality.OwnOccupiedTargetRefused | java/src/main/java/com/kern/Piece/Piece.java:98-114 | a target held only by own pieces is refused by every kind, except by a king move the castling rule accepts and by a pawn's one-square diagonal step |
| Legality.StraightBlockerBlocks | java/src/main/java/com/kern/Piece/Rook.java:23-27 | any piece strictly between on the line makes rook and queen moves illegal |
| Legality.DiagonalBlockerBlocks | java/src/main/java/com/kern/Piece/Bishop.java:23-27 | any piece strictly between on the diagonal makes bishop and queen moves illegal |
| Legality.QueenNeverKnightShaped | java/src/main/java/com/kern/Piece/Queen.java:24-37 | a knight-shaped target is never legal for the queen |
| Legality.HittingPieceFrame | java/src/main/java/com/kern/Piece/Piece.java:66-76 | replacing a piece off the target by another off the target leaves the recorded occupant unchanged |
| Legality.KnightIgnoresOtherSquares | java/src/main/java/com/kern/Piece/Knight.java:22-29 | pieces away from the target never change the knight's verdict; there is no path scan |
| Legality.PawnForwardOnly | java/src/main/java/com/kern/Piece/Pawn.java:26-68 | a legal pawn move goes one or two rows forward for its colour and at most one column sideways; a two-row move is straight from an unmoved pawn over an empty square |
| Setup.SetPieces | java/src/main/java/com/kern/GUI/GamePanel.java:106-143 | 32 unmoved pieces at rest on the board: white on rows 6-7, black on rows 0-1, pawns exactly on rows 6 and 1, kings on (4,7) and (4,0) |
| Setup.InitialSquaresDistinct | java/src/main/java/com/kern/GUI/GamePanel.java:106-143 | no two initial pieces share a square |
| Controller.CopyPieces | java/src/main/java/com/kern/GUI/GamePanel.java:145-151 | the copy has the source's length and is element-wise equal to it |
| Controller.RemoveIndex | java/src/main/java/com/kern/GUI/GamePanel.java:299 | removing position i drops exactly that element, keeping the others in order |
| Controller.InitialGame | java/src/main/java/com/kern/GUI/GamePanel.java:102-103 | the initial game is well formed, white moves first, and both lists hold the initial layout |
| Controller.LastMatch | java/src/main/java/com/kern/GUI/GamePanel.java:192-199 | the last entry of the list, of the given colour, standing on the clicked square |
| Controller.Select | java/src/main/java/com/kern/GUI/GamePanel.java:187-199 | a press picks up the last piece of the side to move on the clicked square, and picks up nothing exactly when there is none |
| Controller.CheckCastling | java/src/main/java/com/kern/GUI/GamePanel.java:308-317 | the partner moves from column 0 to 3 or from column 7 to 5 on its row; nothing else changes |
| Controller.Restart | java/src/main/java/com/kern/GUI/GamePanel.java:272-284 | each frame restarts the working list from the committed one and returns the previous castling partner to its origin column |
| Controller.RestartAtRest | java/src/main/java/com/kern/GUI/GamePanel.java:279-284 | when the previous partner already rests on its origin, the restart moves no piece |
| Controller.DropCaptured | java/src/main/java/com/kern/GUI/GamePanel.java:297-300 | no capture leaves the working list alone; a capture of a listed piece removes its first occurrence and nothing else, keeping the order; a capture of an unlisted piece drops the first entry, since `getIndex` answers 0 |
| Controller.AcceptVerdict | java/src/main/java/com/kern/GUI/GamePanel.java:296-304 | a legal frame drops the capture from the working list and moves the named partner from column 0 to 3 or from 7 to 5 (any other column stays); no other piece changes |
| Controller.ApplyVerdict | java/src/main/java/com/kern/GUI/GamePanel.java:293-305 | the frame's flags equal the verdict; a legal verdict drops the capture and relocates the named partner as `checkCastling` does, an illegal one leaves the list alone; the held piece records the capture; no other piece changes |
| Controller.Simulate | java/src/main/java/com/kern/GUI/GamePanel.java:270-306 | a frame keeps the game well formed and leaves the committed list, the held piece and the side to move unchanged |
| Controller.SimulateFrame | java/src/main/java/com/kern/GUI/GamePanel.java:270-306 | a frame changes only the held piece, the previous castling partner and the new one; the new partner is relocated by `checkCastling` from where the restart left it |
| Controller.CastlingPartnerFromBoard | java/src/main/java/com/kern/Piece/King.java:44-71 | a castling partner is a piece of the board, standing off the king's target column |
| Controller.SimulateVerdict | java/src/main/java/com/kern/GUI/GamePanel.java:290-305 | a frame applies the engine's verdict for the held piece on the restarted list: undecided exactly when the verdict is, `validSquare` equals its legality, the held piece records its capture, a legal move names its castling partner and drops its capture from the list, a refused one restores the committed list |
| Controller.PartnerIsNotHeld | java/src/main/java/com/kern/GUI/GamePanel.java:302 | the castling partner is never the held piece, so relocating it does not move the king |
| Controller.SimulateHeld | java/src/main/java/com/kern/GUI/GamePanel.java:286-291 | after a frame the held piece stands on the snapped mouse square with its origin, kind and colour kept |
| Controller.SimulateOnBoard | java/src/main/java/com/kern/GUI/GamePanel.java:290-305 | a frame whose snapped square is off the board is never valid |
| Controller.SimulateList | java/src/main/java/com/kern/GUI/GamePanel.java:270-306 | an invalid frame leaves the working list equal to the committed one; a valid capture removes exactly one occurrence of the captured piece |
| Controller.SimulateReturnsPartner | java/src/main/java/com/kern/GUI/GamePanel.java:279-284 | an earlier castling partner is back on its origin column unless the frame castles with it again |
| Controller.CancelAfterRefusal | java/src/main/java/com/kern/GUI/GamePanel.java:227-233 | cancelling a refused frame resets the held piece, which keeps the frame's capture, and changes nothing else |
| Controller.CancelUndoesFrame | java/src/main/java/com/kern/GUI/GamePanel.java:227-233 | cancelling after an invalid frame restores the committed list and every piece, except that the held piece keeps the capture the frame recorded; this holds also on the first frame after a castling, whose partner rests on its committed square |
| Controller.ChangePlayer | java/src/main/java/com/kern/GUI/GamePanel.java:319-341 | the other side is to move; the double-step flag is cleared on every committed piece of the new side; every other piece and field is unchanged |
| Controller.CommitPositions | java/src/main/java/com/kern/GUI/GamePanel.java:215-220 | the working list becomes the committed one; the held piece and any castling partner are each committed where they stand (new origin, moved flag, double-step flag); nothing else changes |
| Controller.Commit | java/src/main/java/com/kern/GUI/GamePanel.java:209-226 | after a commit the held piece rests on its square as moved and any partner is committed on its square; every other piece is unchanged except for its double-step flag; a promotion is pending exactly when the held piece is a pawn on the far row for its colour, and then the same side stays to move; otherwise the turn has passed and no committed piece of the new side to move is marked double-stepped, while the mover keeps the flag its commit gave it |
| Controller.PromoteOrPass | java/src/main/java/com/kern/GUI/GamePanel.java:222-226 | a promotion is pending exactly under `canPromote`, with the same side to move; otherwise the turn passes and the new side's double-step flags are cleared; only the other side's flags ever change |
| Controller.Cancel | java/src/main/java/com/kern/GUI/GamePanel.java:227-233 | only the held piece changes, back to its origin; both lists are unchanged |
| Controller.CanPromote | java/src/main/java/com/kern/GUI/GamePanel.java:343-357 | the held piece is a pawn on row 0 for white or row 7 for black (the reference predicate of the promotion clause of Controller.Commit) |
| Controller.PromotionChoice | java/src/main/java/com/kern/GUI/GamePanel.java:347-351 | the menu offers queen, rook, knight and bishop, exactly on column 8, rows 2-5 |
| Controller.PromoteList | java/src/main/java/com/kern/GUI/GamePanel.java:246-260 | promotion keeps the list length, puts the new piece last and removes one occurrence of the pawn |
| Controller.PromotedSim | java/src/main/java/com/kern/GUI/GamePanel.java:246-260 | with the pawn listed, the list of Controller.PromoteList; with the pawn missing, the new id is appended and the first entry removed; no other id ever appears |
| Controller.Promote | java/src/main/java/com/kern/GUI/GamePanel.java:244-263 | the new piece has the chosen kind and the side's colour on the pawn's square; nothing else in the heap changes; the lists agree; when the pawn is missing from the list, the first entry is dropped instead |
| Controller.Promoting | java/src/main/java/com/kern/GUI/GamePanel.java:239-268 | a click on a menu entry adds the new piece, removes the pawn (or the first entry when the pawn is missing from the list) and passes the turn, clearing the new side's double-step flags; every existing piece is unchanged except for that flag; any other frame changes nothing |
| Controller.PromoteAndPass | java/src/main/java/com/kern/GUI/GamePanel.java:244-265 | the promotion followed by `changePlayer`: the new piece, the list with the pawn replaced, the turn passed with the new side's double-step flags cleared, and every existing piece unchanged except for that flag |
| Controller.Update | java/src/main/java/com/kern/GUI/GamePanel.java:180-237 | every step of the game loop keeps the game well formed; a release on an invalid square leaves the committed list as it was |
| Scenarios.EnPassantExample | java/src/main/java/com/kern/Piece/Pawn.java:61-67 | a pawn beside a just double-stepped enemy pawn may take it en passant |
| Scenarios.EnPassantOntoOwnPiece | java/src/main/java/com/kern/Piece/Pawn.java:61-67 | the en-passant branch lets a pawn land on its own piece |
| Scenarios.CastlingExample | java/src/main/java/com/kern/Piece/King.java:41-51 | king-side castling from (4,7) names the rook on (7,7), which `checkCastling` puts on column 5 |
| Scenarios.CastlingOntoOccupiedSquare | java/src/main/java/com/kern/Piece/King.java:41-51 | castling is legal onto a square held by the king's own piece |
| Scenarios.BlockedCastlingRecordsOwnBishop | java/src/main/java/com/kern/Piece/King.java:41-43 | a castling attempt blocked by an own bishop is refused but records the bishop as the capture |
| Scenarios.StaleCaptureRemovesOwnBishop | java/src/main/java/com/kern/GUI/GamePanel.java:294-300 | a later castling carries that stale capture, and the frame removes the own bishop |
| Scenarios.FacingKingsNeverDecide | java/src/main/java/com/kern/Piece/King.java:25-34 | two kings next to the target never reach a verdict, whatever the fuel |
| Scenarios.QuickClickPassesTurn | java/src/main/java/com/kern/GUI/GamePanel.java:207-226 | a press and release with no frame between commits the piece in place and passes the turn |

## Left out

- Rendering (`paintComponent`, `Board.draw`, images, colours), the game-loop thread and its timing, `Main`, and mouse polling: these are UI, I/O and timing. The mouse is an input record `Mouse(x, y, pressed)`.
- The pixel fields `x` and `y`: only the snapped square indices matter to legality. The commit recomputes the origin through pixels, as the source does.
- `isReachableByOponent`: it is never called.
- Moves.Attacked: the nested `canMove` calls of the king's enemy sweep have side effects that the model drops. They overwrite the swept pieces' `hittinPiece` (through `isValidSequare`, King.java:27), the swept enemy king's included. An enemy king's castling branch also writes `GamePanel.castlingPiece`. The model returns only the mover's own capture and partner. A later castling by that enemy king hands its `hittinPiece` on to the capture removal (GamePanel.java:298-300), so in a game where a sweep rewrote it the pieces the source removes can differ from the model's.
- Moves.CanMove: the unbounded recursion between two kings is cut by a `fuel` parameter. `None` means the nesting of enemy sweeps went deeper than the fuel; each nested `canMove` gets one unit less. `KingFacts.CanMoveFuelMonotone` shows that a verdict, once reached, is the same for every larger fuel, and `Scenarios.FacingKingsNeverDecide` shows a position where no fuel suffices, which is where the source overflows its stack. No lemma bounds the fuel a position needs in general.
- Controller.RemoveIndex: an index past the end leaves the list unchanged, whereas Java throws. The index comes from `getIndex`, so this happens only on an empty list.
- Controller.Update: it takes the same `fuel` as `CanMove` and answers `None` when the king's enemy sweep nests deeper than the fuel, which includes the positions where the source overflows.
- The `canMove` flag of `GamePanel` is kept but not read: the source uses it only for drawing.
- Check, checkmate, stalemate and move history: the source does not implement them.

=== FILE: base.dfy ===
/** Small shared vocabulary: an optional value (Java's nullable reference)
    and the absolute value used by every distance test (Java's Math.abs). */
module Base {

  /** A nullable reference: `None` is Java's `null`. */
  datatype Option<+T> = None | Some(value: T)

  function Abs(x: int): nat
  {
    if x < 0 then -x else x
  }
}

=== FILE: controller.dfy ===
/** The turn/move controller: selection, the per-frame simulation of a
    dragged move, commit and cancel on release, castling-partner relocation,
    turn switching and promotion. Java's two lists `pieces` and `simPieces`
    hold references to shared piece objects; here they are lists of ids
    into one `heap`, so a change to a piece is seen through both lists. */
module Controller {
  import opened Base
  import opened Geometry
  import opened Pieces
  import opened Moves
  import opened Setup
  import KingFacts
  import Legality
  import Rules

  /** The mouse as the game loop samples it. */
  datatype Mouse = Mouse(x: int, y: int, pressed: bool)

  /** The panel's state: every piece object by id, the committed list
      `pieces`, the working list `simPieces`, the castling partner, the held
      piece, the side to move and the flags of the last simulated frame. */
  datatype Game = Game(
    heap: map<nat, Piece>,
    pieces: seq<nat>,
    sim: seq<nat>,
    castling: Option<nat>,
    active: Option<nat>,
    currentColor: Color,
    canMove: bool,
    validSquare: bool,
    canPromotion: bool,
    nextId: nat)

  predicate InHeap(heap: map<nat, Piece>, ids: seq<nat>)
  {
    forall i :: 0 <= i < |ids| ==> ids[i] in heap
  }

  /** Every id used by the controller names a piece, every piece is stored
      under its own id, fresh ids are above all used ones, and a pending
      promotion has a piece to promote. */
  predicate WellFormed(g: Game)
  {
    (forall k :: k in g.heap ==> g.heap[k].id == k && k < g.nextId) &&
    InHeap(g.heap, g.pieces) && InHeap(g.heap, g.sim) &&
    (g.castling.Some? ==> g.castling.value in g.heap) &&
    (g.active.Some? ==> g.active.value in g.heap) &&
    (g.canPromotion ==> g.active.Some?)
  }

  /** The pieces an id list refers to, in list order. */
  function View(heap: map<nat, Piece>, ids: seq<nat>): (ps: seq<Piece>)
    requires InHeap(heap, ids)
    ensures |ps| == |ids| && forall i :: 0 <= i < |ids| ==> ps[i] == heap[ids[i]]
  {
    seq(|ids|, i requires 0 <= i < |ids| => heap[ids[i]])
  }

  /** `copyPieces`: the target list is cleared and the source's elements
      are appended one by one. */
  function CopyPieces(source: seq<nat>): (target: seq<nat>)
    ensures |target| == |source|
    ensures forall i :: 0 <= i < |source| ==> target[i] == source[i]
  {
    if |source| == 0 then []
    else CopyPieces(source[..|source| - 1]) + [source[|source| - 1]]
  }

  /** `ArrayList.remove(int)`; an index past the end leaves the list as it
      is (Java would throw). */
  function RemoveIndex(s: seq<nat>, i: nat): (r: seq<nat>)
    ensures i < |s| ==> |r| == |s| - 1 && multiset(r) == multiset(s) - multiset{s[i]}
    ensures i < |s| ==> r[..i] == s[..i] && r[i..] == s[i + 1..]
    ensures i >= |s| ==> r == s
  {
    if i < |s| then
      assert s == s[..i] + [s[i]] + s[i + 1..];
      s[..i] + s[i + 1..]
    else s
  }

  /** The game as the panel's constructor leaves it. */
  function InitialGame(): (g: Game)
    ensures WellFormed(g)
    ensures |g.pieces| == 32 && g.sim == g.pieces
    ensures View(g.heap, g.pieces) == SetPieces()
    ensures g.currentColor == White && g.active.None? && g.castling.None? && !g.canPromotion
  {
    var ps := SetPieces();
    var heap := map i | 0 <= i < 32 :: ps[i];
    var ids := seq(32, i requires 0 <= i < 32 => i);
    var g := Game(heap, ids, CopyPieces(ids), None, None, White, false, false, false, 32);
    assert View(g.heap, g.pieces) == ps;
    g
  }

  /** Index of the last entry of `sim`, before `upTo`, holding a piece of
      the given colour on the given square. */
  function LastMatch(heap: map<nat, Piece>, sim: seq<nat>, color: Color, column: int, row: int, upTo: nat): (r: Option<nat>)
    requires InHeap(heap, sim) && upTo <= |sim|
    ensures r.Some? ==> r.value < upTo && heap[sim[r.value]].color == color &&
                        At(heap[sim[r.value]], column, row)
    ensures r.Some? ==> forall j :: r.value < j < upTo ==>
                          !(heap[sim[j]].color == color && At(heap[sim[j]], column, row))
    ensures r.None? ==> forall j :: 0 <= j < upTo ==>
                          !(heap[sim[j]].color == color && At(heap[sim[j]], column, row))
  {
    if upTo == 0 then None
    else if heap[sim[upTo - 1]].color == color && At(heap[sim[upTo - 1]], column, row) then Some(upTo - 1)
    else LastMatch(heap, sim, color, column, row, upTo - 1)
  }

  /** A press with no piece held: every piece of the side to move on the
      clicked square is taken in turn, so the last one in `simPieces` wins. */
  function Select(g: Game, mouse: Mouse): (r: Game)
    requires WellFormed(g) && g.active.None?
    ensures WellFormed(r)
    ensures r.(active := None) == g
    ensures r.active.Some? ==>
              (exists i :: 0 <= i < |g.sim| && g.sim[i] == r.active.value) &&
              g.heap[r.active.value].color == g.currentColor &&
              At(g.heap[r.active.value], JavaDiv(mouse.x, SquareSize), JavaDiv(mouse.y, SquareSize))
    ensures r.active.None? <==> forall i :: 0 <= i < |g.sim| ==>
              !(g.heap[g.sim[i]].color == g.currentColor &&
                At(g.heap[g.sim[i]], JavaDiv(mouse.x, SquareSize), JavaDiv(mouse.y, SquareSize)))
  {
    match LastMatch(g.heap, g.sim, g.currentColor,
                    JavaDiv(mouse.x, SquareSize), JavaDiv(mouse.y, SquareSize), |g.sim|)
    case None => g
    case Some(i) => g.(active := Some(g.sim[i]))
  }

  /** `checkCastling`: a partner in column 0 goes to column 3, one in
      column 7 to column 5; anything else stays. */
  function CheckCastling(heap: map<nat, Piece>, castling: Option<nat>): (r: map<nat, Piece>)
    requires castling.Some? ==> castling.value in heap
    ensures r.Keys == heap.Keys
    ensures forall k :: k in heap && Some(k) != castling ==> r[k] == heap[k]
    ensures castling.Some? ==>
      var p := heap[castling.value];
      var q := r[castling.value];
      q.row == p.row && q.(column := p.column) == p &&
      (p.column == 0 ==> q.column == 3) &&
      (p.column == 7 ==> q.column == 5) &&
      (p.column != 0 && p.column != 7 ==> q.column == p.column)
  {
    match castling
    case None => heap
    case Some(cp) =>
      var p := heap[cp];
      var column := if p.column == 0 then p.column + 3 else if p.column == 7 then p.column - 2 else p.column;
      heap[cp := p.(column := column)]
  }

  /** The square a piece dragged by the mouse snaps to: the piece is drawn
      with its centre under the mouse, so its corner is half a square up
      and left of the mouse. */
  function DragColumn(mouse: Mouse): int
  {
    ToIndex(mouse.x - HalfSquareSize)
  }

  function DragRow(mouse: Mouse): int
  {
    ToIndex(mouse.y - HalfSquareSize)
  }

  /** The start of a frame of `simulate`: the simulation list restarts
      from the committed list and the previous castling partner goes back
      to its origin column. */
  function Restart(g: Game): (r: Game)
    requires WellFormed(g)
    ensures WellFormed(r)
    ensures r.sim == g.pieces && r.pieces == g.pieces && r.castling.None?
    ensures r.heap.Keys == g.heap.Keys
    ensures forall k :: k in g.heap && Some(k) != g.castling ==> r.heap[k] == g.heap[k]
    ensures g.castling.Some? ==>
              r.heap[g.castling.value] == g.heap[g.castling.value].(column := g.heap[g.castling.value].preColumn)
    ensures r.(heap := g.heap, sim := g.sim, castling := g.castling, canMove := g.canMove,
               validSquare := g.validSquare) == g
    ensures !r.canMove && !r.validSquare
  {
    var heap := match g.castling
      case None => g.heap
      case Some(cp) => g.heap[cp := g.heap[cp].(column := g.heap[cp].preColumn)];
    g.(heap := heap, sim := CopyPieces(g.pieces), castling := None, canMove := false, validSquare := false)
  }

  /** The held piece follows the mouse. */
  function DragActive(g: Game, mouse: Mouse): (r: Game)
    requires WellFormed(g) && g.active.Some?
    ensures WellFormed(r)
    ensures r.heap.Keys == g.heap.Keys
    ensures r.heap[g.active.value] == Drag(g.heap[g.active.value], DragColumn(mouse), DragRow(mouse))
    ensures forall k :: k in g.heap && k != g.active.value ==> r.heap[k] == g.heap[k]
    ensures r.(heap := g.heap) == g
  {
    var a := g.active.value;
    g.(heap := g.heap[a := Drag(g.heap[a], DragColumn(mouse), DragRow(mouse))])
  }

  /** The simulation list after a legal move: the captured piece, found
      with `getIndex` (index 0 when it is not in the list), is removed. */
  function DropCaptured(sim: seq<nat>, hit: Option<nat>): (r: seq<nat>)
    ensures hit.None? ==> r == sim
    ensures hit.Some? && hit.value in sim ==>
              |r| == |sim| - 1 && multiset(r) == multiset(sim) - multiset{hit.value}
    ensures hit.Some? && hit.value in sim ==>
              var i := GetIndex(sim, hit.value); r == sim[..i] + sim[i + 1..]
    ensures hit.Some? && hit.value !in sim && |sim| > 0 ==> r == sim[1..]
    ensures forall x :: x in r ==> x in sim
  {
    match hit
    case None => sim
    case Some(h) =>
      var i := GetIndex(sim, h);
      assert i < |sim| ==> sim == sim[..i] + [sim[i]] + sim[i + 1..];
      assert h in sim ==> i < |sim| && sim[i] == h;
      RemoveIndex(sim, i)
  }

  /** The held piece records the capture its `canMove` left behind. */
  function RecordHit(g: Game, hit: Option<nat>): (r: Game)
    requires WellFormed(g) && g.active.Some?
    ensures WellFormed(r)
    ensures r.heap.Keys == g.heap.Keys
    ensures r.heap[g.active.value] == g.heap[g.active.value].(hit := hit)
    ensures forall k :: k in g.heap && k != g.active.value ==> r.heap[k] == g.heap[k]
    ensures r.(heap := g.heap) == g
  {
    var a := g.active.value;
    g.(heap := g.heap[a := g.heap[a].(hit := hit)])
  }

  /** A legal frame: the captured piece leaves the working list and the
      castling partner, if any, is relocated by `checkCastling`. */
  function AcceptVerdict(g: Game, v: Verdict): (r: Game)
    requires WellFormed(g)
    requires v.castling.Some? ==> v.castling.value in g.heap
    ensures WellFormed(r)
    ensures r.pieces == g.pieces && r.active == g.active && r.currentColor == g.currentColor
    ensures r.heap.Keys == g.heap.Keys
    ensures r.canMove && r.validSquare && r.castling == v.castling && r.sim == DropCaptured(g.sim, v.hit)
    ensures forall k :: k in g.heap && Some(k) != v.castling ==> r.heap[k] == g.heap[k]
    ensures v.castling.Some? ==>
              var p := g.heap[v.castling.value];
              r.heap[v.castling.value] == p.(column := if p.column == 0 then 3 else if p.column == 7 then 5 else p.column)
  {
    g.(heap := CheckCastling(g.heap, v.castling), sim := DropCaptured(g.sim, v.hit),
       castling := v.castling, canMove := true, validSquare := true)
  }

  /** The end of a frame of `simulate`: store the verdict's capture in the
      held piece and, on a legal move, drop the captured piece from the
      simulation list and relocate the castling partner. */
  function ApplyVerdict(g: Game, v: Verdict): (r: Game)
    requires WellFormed(g) && g.active.Some?
    requires v.castling.Some? ==> v.castling.value in g.heap
    ensures WellFormed(r)
    ensures r.pieces == g.pieces && r.active == g.active && r.currentColor == g.currentColor
    ensures r.heap.Keys == g.heap.Keys
    ensures r.canMove == r.validSquare == v.legal
    ensures !v.legal ==> r.sim == g.sim && r.castling.None?
    ensures v.legal ==> r.castling == v.castling && r.sim == DropCaptured(g.sim, v.hit)
    ensures v.castling != g.active ==> r.heap[g.active.value] == g.heap[g.active.value].(hit := v.hit)
    ensures forall k :: k in g.heap && k != g.active.value && (!v.legal || Some(k) != v.castling) ==>
              r.heap[k] == g.heap[k]
    ensures v.legal && v.castling.Some? && v.castling != g.active ==>
              var p := g.heap[v.castling.value];
              r.heap[v.castling.value] == p.(column := if p.column == 0 then 3 else if p.column == 7 then 5 else p.column)
  {
    var g1 := RecordHit(g, v.hit);
    if v.legal then AcceptVerdict(g1, v)
    else
      g1.(castling := None, canMove := false, validSquare := false)
  }

  /** One frame of `simulate` while a piece is held. `None` when the king's
      enemy sweep exceeded `fuel`. */
  function Simulate(g: Game, mouse: Mouse, fuel: nat): (r: Option<Game>)
    requires WellFormed(g) && g.active.Some?
    ensures r.Some? ==> WellFormed(r.value)
    ensures r.Some? ==> r.value.pieces == g.pieces && r.value.active == g.active &&
                        r.value.currentColor == g.currentColor &&
                        r.value.canPromotion == g.canPromotion && r.value.nextId == g.nextId
  {
    var g1 := DragActive(Restart(g), mouse);
    var a := g.active.value;
    var ps := View(g1.heap, g1.sim);
    match CanMove(ps, g1.heap[a], DragColumn(mouse), DragRow(mouse), fuel)
    case None => None
    case Some(v) =>
      PartnerIsNotHeld(g1, a, DragColumn(mouse), DragRow(mouse), fuel);
      Some(ApplyVerdict(g1, v))
  }

  /** A frame of `simulate` applies the engine's verdict for the held
      piece on the restarted list: the frame is undecided exactly when the
      verdict is, the square is valid exactly when the move is legal, the
      held piece records the verdict's capture, a legal move names the
      verdict's castling partner and removes its capture from the list,
      and a refused one restores the committed list. */
  lemma SimulateVerdict(g: Game, mouse: Mouse, fuel: nat)
    requires WellFormed(g) && g.active.Some?
    ensures var g1 := DragActive(Restart(g), mouse);
            var a := g.active.value;
            var o := CanMove(View(g1.heap, g1.sim), g1.heap[a], DragColumn(mouse), DragRow(mouse), fuel);
            var r := Simulate(g, mouse, fuel);
            (r.Some? <==> o.Some?) &&
            (r.Some? ==>
               r.value.validSquare == o.value.legal && r.value.heap[a].hit == o.value.hit &&
               r.value.castling == (if o.value.legal then o.value.castling else None) &&
               r.value.sim == (if o.value.legal then DropCaptured(g.pieces, o.value.hit) else g.pieces))
  {
    var g1 := DragActive(Restart(g), mouse);
    PartnerIsNotHeld(g1, g.active.value, DragColumn(mouse), DragRow(mouse), fuel);
  }

  /** The castling partner a verdict names is a piece of the board it was
      computed on, standing off the mover's target column (it is three or
      four columns from the king's origin, the target two). */
  lemma CastlingPartnerFromBoard(ps: seq<Piece>, me: Piece, column: int, row: int, fuel: nat)
    ensures var o := CanMove(ps, me, column, row, fuel);
            o.Some? && o.value.castling.Some? ==>
              exists j :: 0 <= j < |ps| && ps[j].id == o.value.castling.value && ps[j].column != column
  {
    if me.kind == King && IsWithinBoard(column, row) {
      if Rules.KingStepShape(me, column, row) {
        var p := IsValidSquare(ps, me, column, row);
        if !p.ok {
          var v := Castle(ps, me, column, row, None);
        }
      } else {
        var v := Castle(ps, me, column, row, me.hit);
      }
    }
  }

  /** In a frame of `simulate`, the castling partner is never the held
      piece: every entry naming the held piece stands on the target. */
  lemma PartnerIsNotHeld(g1: Game, a: nat, column: int, row: int, fuel: nat)
    requires WellFormed(g1) && a in g1.heap
    requires g1.heap[a].column == column
    ensures var o := CanMove(View(g1.heap, g1.sim), g1.heap[a], column, row, fuel);
            o.Some? && o.value.castling.Some? ==> o.value.castling.value in g1.heap && o.value.castling.value != a
  {
    var ps := View(g1.heap, g1.sim);
    CastlingPartnerFromBoard(ps, g1.heap[a], column, row, fuel);
    var o := CanMove(ps, g1.heap[a], column, row, fuel);
    if o.Some? && o.value.castling.Some? {
      var j :| 0 <= j < |ps| && ps[j].id == o.value.castling.value && ps[j].column != column;
      assert ps[j] == g1.heap[g1.sim[j]];
    }
  }

  /** In a frame of `simulate` the held piece stands on the dragged square
      and keeps its origin, kind and colour; `SimulateVerdict` states the
      capture it records. */
  lemma SimulateHeld(g: Game, mouse: Mouse, fuel: nat)
    requires WellFormed(g) && g.active.Some?
    ensures var r := Simulate(g, mouse, fuel);
            var a := g.active.value;
            r.Some? ==>
              var q := r.value.heap[a];
              q.column == DragColumn(mouse) && q.row == DragRow(mouse) &&
              q.preColumn == g.heap[a].preColumn && q.preRow == g.heap[a].preRow &&
              q.kind == g.heap[a].kind && q.color == g.heap[a].color
  {
    var g1 := DragActive(Restart(g), mouse);
    var a := g.active.value;
    var ps := View(g1.heap, g1.sim);
    PartnerIsNotHeld(g1, a, DragColumn(mouse), DragRow(mouse), fuel);
  }

  /** In a frame of `simulate` a square off the board is never valid. */
  lemma SimulateOnBoard(g: Game, mouse: Mouse, fuel: nat)
    requires WellFormed(g) && g.active.Some?
    ensures var r := Simulate(g, mouse, fuel);
            r.Some? && r.value.validSquare ==> IsWithinBoard(DragColumn(mouse), DragRow(mouse))
  {
    var g1 := DragActive(Restart(g), mouse);
    var a := g.active.value;
    var c, rr := DragColumn(mouse), DragRow(mouse);
    if !IsWithinBoard(c, rr) {
      Legality.OffBoardNeverLegal(View(g1.heap, g1.sim), g1.heap[a], c, rr, fuel);
    }
  }

  /** In a frame of `simulate` an invalid move leaves the simulation list
      equal to the committed one, and a valid one removes exactly one
      occurrence of the capture the held piece records. */
  lemma SimulateList(g: Game, mouse: Mouse, fuel: nat)
    requires WellFormed(g) && g.active.Some?
    ensures var r := Simulate(g, mouse, fuel);
            var a := g.active.value;
            r.Some? ==>
              var h := r.value.heap[a].hit;
              (!r.value.validSquare ==> r.value.sim == g.pieces && r.value.castling.None?) &&
              (r.value.validSquare && h.None? ==> r.value.sim == g.pieces) &&
              (r.value.validSquare && h.Some? && h.value in g.pieces ==>
                 |r.value.sim| == |g.pieces| - 1 &&
                 multiset(r.value.sim) == multiset(g.pieces) - multiset{h.value})
  {
    var g1 := DragActive(Restart(g), mouse);
    var a := g.active.value;
    var c, rr := DragColumn(mouse), DragRow(mouse);
    PartnerIsNotHeld(g1, a, c, rr, fuel);
    var o := CanMove(View(g1.heap, g1.sim), g1.heap[a], c, rr, fuel);
    if o.Some? {
      var r := ApplyVerdict(g1, o.value);
      assert Simulate(g, mouse, fuel) == Some(r);
      assert g1.sim == g.pieces;
      assert r.heap[a].hit == o.value.hit;
    }
  }

  /** An earlier castling partner is back on its origin column after a
      frame of `simulate`, unless that frame castles with it again. */
  lemma SimulateReturnsPartner(g: Game, mouse: Mouse, fuel: nat)
    requires WellFormed(g) && g.active.Some?
    ensures var r := Simulate(g, mouse, fuel);
            r.Some? && g.castling.Some? && g.castling != g.active && r.value.castling != g.castling ==>
              r.value.heap[g.castling.value].column == g.heap[g.castling.value].preColumn
  {
    var g1 := DragActive(Restart(g), mouse);
    PartnerIsNotHeld(g1, g.active.value, DragColumn(mouse), DragRow(mouse), fuel);
  }

  /** A frame of `simulate` changes only the held piece, the previous
      castling partner and the new one; a new partner is relocated as
      `checkCastling` does, from where the restart left it. */
  lemma SimulateFrame(g: Game, mouse: Mouse, fuel: nat)
    requires WellFormed(g) && g.active.Some?
    ensures var r := Simulate(g, mouse, fuel);
            r.Some? ==>
              (forall k :: k in g.heap && Some(k) != g.active && Some(k) != g.castling && Some(k) != r.value.castling ==>
                 r.value.heap[k] == g.heap[k]) &&
              (r.value.castling.Some? ==>
                 var cp := r.value.castling.value;
                 cp in g.heap && r.value.heap[cp] == CheckCastling(Restart(g).heap, r.value.castling)[cp])
  {
    var g1 := DragActive(Restart(g), mouse);
    PartnerIsNotHeld(g1, g.active.value, DragColumn(mouse), DragRow(mouse), fuel);
  }

  /** When the previous castling partner already rests on its origin,
      the restart of a frame moves no piece. */
  lemma RestartAtRest(g: Game)
    requires WellFormed(g)
    requires g.castling.Some? ==>
               At(g.heap[g.castling.value], g.heap[g.castling.value].preColumn, g.heap[g.castling.value].preRow)
    ensures Restart(g).heap == g.heap
  {
    if g.castling.Some? {
      var cp := g.castling.value;
      assert Restart(g).heap[cp] == g.heap[cp];
    }
  }

  /** Cancelling a refused frame resets the held piece, which keeps the
      frame's capture, and changes nothing else. */
  lemma CancelAfterRefusal(g: Game, v: Verdict)
    requires WellFormed(g) && g.active.Some? && !v.legal
    requires v.castling.Some? ==> v.castling.value in g.heap
    ensures var c := Cancel(ApplyVerdict(g, v));
            var a := g.active.value;
            c.pieces == g.pieces && c.sim == g.sim && c.active.None? &&
            c.heap == g.heap[a := ResetPosition(g.heap[a]).(hit := v.hit)]
  {
    var a := g.active.value;
    var r := ApplyVerdict(g, v);
    var c := Cancel(r);
    assert r.heap[a] == g.heap[a].(hit := v.hit);
    forall k | k in g.heap
      ensures c.heap[k] == g.heap[a := ResetPosition(g.heap[a]).(hit := v.hit)][k]
    {
      if k != a {
        assert c.heap[k] == r.heap[k] == g.heap[k];
      }
    }
  }

  /** Cancelling after an invalid frame undoes the frame: the committed
      list and every piece are as before, the held piece back at rest on
      its origin, except that it keeps the capture the frame recorded. */
  lemma CancelUndoesFrame(g: Game, mouse: Mouse, fuel: nat)
    requires WellFormed(g) && g.active.Some?
    requires At(g.heap[g.active.value], g.heap[g.active.value].preColumn, g.heap[g.active.value].preRow)
    requires g.castling.Some? ==>
               At(g.heap[g.castling.value], g.heap[g.castling.value].preColumn, g.heap[g.castling.value].preRow)
    ensures var r := Simulate(g, mouse, fuel);
            var a := g.active.value;
            r.Some? && !r.value.validSquare ==>
              var c := Cancel(r.value);
              c.pieces == g.pieces && c.sim == g.pieces && c.active.None? &&
              c.heap == g.heap[a := g.heap[a].(hit := c.heap[a].hit)]
  {
    var g1 := DragActive(Restart(g), mouse);
    var a := g.active.value;
    PartnerIsNotHeld(g1, a, DragColumn(mouse), DragRow(mouse), fuel);
    RestartAtRest(g);
    var o := CanMove(View(g1.heap, g1.sim), g1.heap[a], DragColumn(mouse), DragRow(mouse), fuel);
    if o.Some? && !o.value.legal {
      var v := o.value;
      var r := ApplyVerdict(g1, v);
      assert Simulate(g, mouse, fuel) == Some(r);
      CancelAfterRefusal(g1, v);
      var c := Cancel(r);
      var x := ResetPosition(g1.heap[a]).(hit := v.hit);
      assert c.heap == g1.heap[a := x];
      assert x == g.heap[a].(hit := v.hit);
      assert g1.heap == g.heap[a := g1.heap[a]];
      assert c.heap == g.heap[a := x];
      assert c.heap[a].hit == v.hit;
    }
  }


  /** The side that moves after `color`. */
  function Opponent(color: Color): (r: Color)
    ensures r != color
  {
    if color == White then Black else White
  }

  /** No committed piece of the side to move carries the double-step
      flag: the en-passant window of its own earlier moves is closed. */
  predicate NoTwoStepOnSideToMove(g: Game)
    requires InHeap(g.heap, g.pieces)
  {
    forall i :: 0 <= i < |g.pieces| && g.heap[g.pieces[i]].color == g.currentColor ==>
      !g.heap[g.pieces[i]].isTwoStepped
  }

  /** `changePlayer`: the other side is to move, and the en-passant flags
      of its pieces (those in the committed list) are cleared; nothing else
      changes and no piece is held any more. */
  function ChangePlayer(g: Game): (r: Game)
    requires WellFormed(g)
    ensures !g.canPromotion ==> WellFormed(r)
    ensures r.currentColor == Opponent(g.currentColor) && r.active.None?
    ensures r.heap.Keys == g.heap.Keys
    ensures forall i :: 0 <= i < |g.pieces| && g.heap[g.pieces[i]].color == r.currentColor ==>
              !r.heap[g.pieces[i]].isTwoStepped
    ensures forall k :: k in g.heap ==> r.heap[k].(isTwoStepped := g.heap[k].isTwoStepped) == g.heap[k]
    ensures forall k :: k in g.heap && (k !in g.pieces || g.heap[k].color != r.currentColor) ==>
              r.heap[k] == g.heap[k]
    ensures r.(heap := g.heap, currentColor := g.currentColor, active := g.active) == g
  {
    var next := Opponent(g.currentColor);
    var heap := map k | k in g.heap ::
      if k in g.pieces && g.heap[k].color == next then g.heap[k].(isTwoStepped := false) else g.heap[k];
    g.(heap := heap, currentColor := next, active := None)
  }

  /** `canPromote`: the held piece is a pawn on the far rank of its colour. */
  predicate CanPromote(g: Game)
    requires g.active.Some? && g.active.value in g.heap
  {
    var p := g.heap[g.active.value];
    p.kind == Pawn && ((p.color == White && p.row == 0) || (p.color == Black && p.row == 7))
  }

  /** Commit the held piece (and a castling partner) where they stand. */
  function CommitPositions(g: Game): (r: Game)
    requires WellFormed(g) && g.active.Some?
    ensures WellFormed(r)
    ensures r.pieces == g.sim && r.heap.Keys == g.heap.Keys
    ensures r.(heap := g.heap, pieces := g.pieces) == g
    ensures forall k :: k in g.heap && Some(k) != g.active && Some(k) != g.castling ==> r.heap[k] == g.heap[k]
    ensures g.castling != g.active ==> r.heap[g.active.value] == UpdatePosition(g.heap[g.active.value])
    ensures g.castling.Some? ==> r.heap[g.castling.value].isMoved
    ensures g.castling.Some? && g.castling != g.active ==>
              r.heap[g.castling.value] == UpdatePosition(g.heap[g.castling.value])
  {
    var a := g.active.value;
    var heap1 := g.heap[a := UpdatePosition(g.heap[a])];
    var heap2 := match g.castling
      case None => heap1
      case Some(cp) => heap1[cp := UpdatePosition(heap1[cp])];
    g.(pieces := CopyPieces(g.sim), heap := heap2)
  }

  /** Release on a legal square: the simulation becomes the committed
      list, the held piece and any castling partner take their squares as
      new origins, and then either a promotion is pending or the turn passes. */
  function Commit(g: Game): (r: Game)
    requires WellFormed(g) && g.active.Some? && !g.canPromotion
    ensures WellFormed(r)
    ensures r.pieces == g.sim && r.sim == g.sim
    ensures r.heap.Keys == g.heap.Keys
    ensures g.castling != g.active ==>
              var p := g.heap[g.active.value];
              var q := r.heap[g.active.value];
              q.isMoved && q.column == p.column && q.row == p.row &&
              (p.column >= 0 && p.row >= 0 ==> q.preColumn == p.column && q.preRow == p.row)
    ensures r.canPromotion ==>
              r.currentColor == g.currentColor && r.active == g.active && r.heap[g.active.value].kind == Pawn
    ensures !r.canPromotion ==> r.currentColor == Opponent(g.currentColor) && r.active.None?
    ensures var p := g.heap[g.active.value];
            r.canPromotion <==>
              p.kind == Pawn && ((p.color == White && p.row == 0) || (p.color == Black && p.row == 7))
    ensures g.castling.Some? && g.castling != g.active ==>
              var u := UpdatePosition(g.heap[g.castling.value]);
              r.heap[g.castling.value].(isTwoStepped := u.isTwoStepped) == u
    ensures forall k :: k in g.heap && Some(k) != g.active && Some(k) != g.castling ==>
              r.heap[k].(isTwoStepped := g.heap[k].isTwoStepped) == g.heap[k]
    ensures !r.canPromotion ==> NoTwoStepOnSideToMove(r)
    ensures g.castling != g.active && g.heap[g.active.value].color == g.currentColor ==>
              r.heap[g.active.value].isTwoStepped == UpdatePosition(g.heap[g.active.value]).isTwoStepped
  {
    var g1 := CommitPositions(g);
    var a := g.active.value;
    assert g1.heap[a].kind == g.heap[a].kind && g1.heap[a].color == g.heap[a].color &&
           g1.heap[a].row == g.heap[a].row;
    PromoteOrPass(g1)
  }

  /** The end of a commit: a pawn on the far row leaves a promotion
      pending with the same side to move; otherwise the turn passes. Only
      double-step flags change, and only on the other side's pieces. */
  function PromoteOrPass(g: Game): (r: Game)
    requires WellFormed(g) && g.active.Some? && !g.canPromotion
    ensures WellFormed(r)
    ensures r.pieces == g.pieces && r.sim == g.sim && r.heap.Keys == g.heap.Keys
    ensures r.canPromotion <==> CanPromote(g)
    ensures r.canPromotion ==> r.currentColor == g.currentColor && r.active == g.active
    ensures !r.canPromotion ==> r.currentColor == Opponent(g.currentColor) && r.active.None?
    ensures forall k :: k in g.heap ==> r.heap[k].(isTwoStepped := g.heap[k].isTwoStepped) == g.heap[k]
    ensures forall k :: k in g.heap && g.heap[k].color == g.currentColor ==> r.heap[k] == g.heap[k]
    ensures !r.canPromotion ==> NoTwoStepOnSideToMove(r)
  {
    if CanPromote(g) then g.(canPromotion := true) else ChangePlayer(g)
  }

  /** Release on an illegal square: only the held piece moves, back to its
      origin; neither list changes. */
  function Cancel(g: Game): (r: Game)
    requires WellFormed(g) && g.active.Some?
    ensures !g.canPromotion ==> WellFormed(r)
    ensures r.pieces == g.pieces && r.sim == g.sim && r.active.None?
    ensures r.heap.Keys == g.heap.Keys
    ensures r.heap[g.active.value] == ResetPosition(g.heap[g.active.value])
    ensures forall k :: k in g.heap && k != g.active.value ==> r.heap[k] == g.heap[k]
  {
    var a := g.active.value;
    g.(heap := g.heap[a := ResetPosition(g.heap[a])], active := None)
  }

  /** The promotion menu: queen, rook, knight and bishop, one above the
      other in the column right of the board. */
  function PromotionChoice(column: int, row: int): (r: Option<Kind>)
    ensures r.Some? ==> r.value in {Queen, Rook, Knight, Bishop}
    ensures r.Some? <==> column == 8 && 2 <= row <= 5
  {
    if column != 8 then None
    else if row == 2 then Some(Queen)
    else if row == 3 then Some(Rook)
    else if row == 4 then Some(Knight)
    else if row == 5 then Some(Bishop)
    else None
  }

  /** Removing an entry before an appended one commutes with the append. */
  lemma AppendedRemoval(sim: seq<nat>, id: nat, i: nat)
    requires i < |sim|
    ensures RemoveIndex(sim + [id], i) == RemoveIndex(sim, i) + [id]
  {
    assert (sim + [id])[..i] == sim[..i];
    assert (sim + [id])[i + 1..] == sim[i + 1..] + [id];
  }

  /** The list after a promotion: the new piece `id` is appended and the
      first entry holding the pawn is removed. */
  function PromoteList(sim: seq<nat>, pawn: nat, id: nat): (r: seq<nat>)
    requires pawn in sim && id !in sim
    ensures |r| == |sim| && r[|r| - 1] == id
    ensures multiset(r) == multiset(sim) - multiset{pawn} + multiset{id}
    ensures forall x :: x in r ==> x in sim || x == id
  {
    var sim1 := sim + [id];
    var i := GetIndex(sim1, pawn);
    assert sim1[..|sim|] == sim;
    assert i < |sim| by { assert pawn in sim1[..|sim|]; }
    assert sim1[i] == pawn;
    AppendedRemoval(sim, id, i);
    RemoveIndex(sim1, i)
  }

  /** The promotion itself, before the turn passes: the new piece joins
      the heap and the lists, and the pawn leaves the lists. */
  function Promote(g: Game, kind: Kind): (r: Game)
    requires WellFormed(g) && g.active.Some?
    ensures WellFormed(r) && !r.canPromotion && r.active.None?
    ensures g.nextId !in g.heap && g.nextId in r.heap && r.heap == g.heap[g.nextId := r.heap[g.nextId]]
    ensures var pawn := g.heap[g.active.value];
            r.heap[g.nextId] == NewPiece(g.nextId, kind, g.currentColor, pawn.column, pawn.row)
    ensures r.pieces == r.sim && r.currentColor == g.currentColor
    ensures g.active.value in g.sim ==> r.sim == PromoteList(g.sim, g.active.value, g.nextId)
    ensures g.active.value !in g.sim ==> r.sim == (g.sim + [g.nextId])[1..]
  {
    var a := g.active.value;
    var pawn := g.heap[a];
    var id := g.nextId;
    var sim := PromotedSim(g.sim, a, id);
    var heap := g.heap[id := NewPiece(id, kind, g.currentColor, pawn.column, pawn.row)];
    assert id !in g.sim;
    assert InHeap(heap, sim) by {
      forall i | 0 <= i < |sim| ensures sim[i] in heap {
        assert sim[i] in sim;
      }
    }
    var pieces := CopyPieces(sim);
    assert InHeap(heap, pieces);
    g.(heap := heap, sim := sim, pieces := pieces, nextId := id + 1, active := None, canPromotion := false)
  }

  /** `promoting`: a click on a menu entry appends a new piece of that
      kind, of the side to move, on the pawn's square, removes the pawn,
      commits the list and passes the turn; any other frame changes nothing. */
  function Promoting(g: Game, mouse: Mouse): (r: Game)
    requires WellFormed(g) && g.canPromotion
    ensures WellFormed(r)
    ensures !mouse.pressed || PromotionChoice(JavaDiv(mouse.x, SquareSize), JavaDiv(mouse.y, SquareSize)).None? ==> r == g
    ensures mouse.pressed && PromotionChoice(JavaDiv(mouse.x, SquareSize), JavaDiv(mouse.y, SquareSize)).Some? ==>
              var kind := PromotionChoice(JavaDiv(mouse.x, SquareSize), JavaDiv(mouse.y, SquareSize)).value;
              var pawn := g.heap[g.active.value];
              g.nextId !in g.heap && g.nextId in r.heap &&
              r.heap[g.nextId] == NewPiece(g.nextId, kind, g.currentColor, pawn.column, pawn.row) &&
              r.pieces == r.sim && !r.canPromotion && r.active.None? &&
              r.currentColor == Opponent(g.currentColor) &&
              (g.active.value in g.sim ==> r.sim == PromoteList(g.sim, g.active.value, g.nextId)) &&
              (g.active.value !in g.sim ==> r.sim == (g.sim + [g.nextId])[1..]) &&
              NoTwoStepOnSideToMove(r)
    ensures forall k :: k in g.heap ==> k in r.heap && r.heap[k].(isTwoStepped := g.heap[k].isTwoStepped) == g.heap[k]
  {
    var choice := PromotionChoice(JavaDiv(mouse.x, SquareSize), JavaDiv(mouse.y, SquareSize));
    if !mouse.pressed || choice.None? then g
    else
      PromoteAndPass(g, choice.value)
  }

  /** The promotion followed by `changePlayer`. */
  function PromoteAndPass(g: Game, kind: Kind): (r: Game)
    requires WellFormed(g) && g.active.Some?
    ensures WellFormed(r) && !r.canPromotion && r.active.None?
    ensures r.currentColor == Opponent(g.currentColor) && r.pieces == r.sim
    ensures var pawn := g.heap[g.active.value];
            g.nextId !in g.heap && g.nextId in r.heap &&
            r.heap[g.nextId] == NewPiece(g.nextId, kind, g.currentColor, pawn.column, pawn.row)
    ensures g.active.value in g.sim ==> r.sim == PromoteList(g.sim, g.active.value, g.nextId)
    ensures g.active.value !in g.sim ==> r.sim == (g.sim + [g.nextId])[1..]
    ensures NoTwoStepOnSideToMove(r)
    ensures forall k :: k in g.heap ==> k in r.heap && r.heap[k].(isTwoStepped := g.heap[k].isTwoStepped) == g.heap[k]
  {
    var g1 := Promote(g, kind);
    var r := ChangePlayer(g1);
    assert r.heap[g.nextId] == g1.heap[g.nextId];
    assert r.pieces == g1.pieces;
    forall i | 0 <= i < |r.pieces| && r.heap[r.pieces[i]].color == r.currentColor
      ensures !r.heap[r.pieces[i]].isTwoStepped
    {
      assert g1.pieces[i] in g1.heap;
      assert r.heap[g1.pieces[i]].color == g1.heap[g1.pieces[i]].color;
    }
    assert NoTwoStepOnSideToMove(r);
    forall k | k in g.heap
      ensures k in r.heap && r.heap[k].(isTwoStepped := g.heap[k].isTwoStepped) == g.heap[k]
    {
      assert g1.heap[k] == g.heap[k];
    }
    r
  }

  /** Java's list after a promotion, also when the pawn is not in it (then
      `getIndex` yields 0 and the first entry is removed). */
  function PromotedSim(sim: seq<nat>, pawn: nat, id: nat): (r: seq<nat>)
    ensures pawn in sim && id !in sim ==> r == PromoteList(sim, pawn, id)
    ensures pawn !in sim && pawn != id ==> r == (sim + [id])[1..]
    ensures forall x :: x in r ==> x in sim || x == id
  {
    if pawn in sim && id !in sim then PromoteList(sim, pawn, id)
    else
      var sim1 := sim + [id];
      var r := RemoveIndex(sim1, GetIndex(sim1, pawn));
      assert forall x :: x in r ==> x in sim1;
      r
  }

  /** One tick of the game loop's `update`: a pending promotion waits for
      a menu click; otherwise a press picks a piece up or moves the held
      one, and a release commits or cancels it. `None` when the king's
      enemy sweep exceeded `fuel`. */
  function Update(g: Game, mouse: Mouse, fuel: nat): (r: Option<Game>)
    requires WellFormed(g)
    ensures r.Some? ==> WellFormed(r.value)
    ensures !g.canPromotion && !mouse.pressed && g.active.Some? && !g.validSquare ==>
              r.Some? && r.value.pieces == g.pieces && r.value.active.None?
  {
    if g.canPromotion then Some(Promoting(g, mouse))
    else
      var step :=
        if !mouse.pressed then Some(g)
        else if g.active.None? then Some(Select(g, mouse))
        else Simulate(g, mouse, fuel);
      match step
      case None => None
      case Some(g1) =>
        if !mouse.pressed && g1.active.Some? then
          Some(if g1.validSquare then Commit(g1) else Cancel(g1))
        else Some(g1)
  }
}

=== FILE: geometry.dfy ===
/** Board geometry: the 8x8 grid and the snapping between pixel
    coordinates and square indices used while a piece is dragged. */
module Geometry {

  /** Side of one square in pixels. */
  const SquareSize: int := 80
  /** Half a square; added before dividing so that a piece snaps to the
      square whose centre is nearest. */
  const HalfSquareSize: int := SquareSize / 2
  /** Number of columns and of rows. */
  const BoardSize: int := 8

  /** Java's integer division on a positive divisor: it truncates toward
      zero, whereas Dafny's `/` is Euclidean. */
  function JavaDiv(a: int, b: int): (q: int)
    requires b > 0
    ensures a >= 0 ==> q * b <= a < q * b + b
    ensures a < 0 ==> q * b - b < a <= q * b
  {
    if a >= 0 then a / b else -((-a) / b)
  }

  /** Pixel position of a column or row index (`getX`, `getY`). */
  function ToPixel(index: int): (x: int)
    ensures index >= 0 ==> ToIndex(x) == index
  {
    index * SquareSize
  }

  /** Square index of a pixel position (`getColumn`, `getRow`). */
  function ToIndex(pixel: int): (index: int)
    ensures pixel >= -HalfSquareSize ==>
              index * SquareSize - HalfSquareSize <= pixel < index * SquareSize + HalfSquareSize
  {
    JavaDiv(pixel + HalfSquareSize, SquareSize)
  }

  predicate IsWithinBoard(column: int, row: int)
  {
    0 <= column < BoardSize && 0 <= row < BoardSize
  }

  /** Snapping inverts `ToPixel` on every non-negative index, in particular
      on every square of the board. */
  lemma SnapRoundTrip(index: int)
    requires index >= 0
    ensures ToIndex(ToPixel(index)) == index
  {
    assert ToPixel(index) + HalfSquareSize == index * 80 + 40;
  }

  /** On a negative index the truncating division shifts the result by one
      toward zero. */
  lemma SnapNegativeIndex(index: int)
    requires index < 0
    ensures ToIndex(ToPixel(index)) == index + 1
  {
    var a := ToPixel(index) + HalfSquareSize;
    assert a == index * 80 + 40 < 0;
    assert -a == (-index - 1) * 80 + 40;
    assert (-a) / 80 == -index - 1;
  }

  /** For pixels from -40 on, index `c` owns the half-open window of one
      square width centred on `ToPixel(c)`. */
  lemma SnapWindow(pixel: int, index: int)
    requires pixel >= -HalfSquareSize
    ensures ToIndex(pixel) == index <==>
              ToPixel(index) - HalfSquareSize <= pixel < ToPixel(index) + HalfSquareSize
  {
    var q := ToIndex(pixel);
    assert q * 80 <= pixel + 40 < q * 80 + 80;
    if index < q {
      assert index * 80 + 80 <= q * 80;
    } else if index > q {
      assert q * 80 + 80 <= index * 80;
    }
  }

  /** A snapped pixel lands on the board exactly for pixels in (-120, 600):
      truncation makes the first column 80 pixels wider to the left. */
  lemma SnapOnBoard(pixel: int)
    ensures 0 <= ToIndex(pixel) < BoardSize <==> -120 < pixel < 600
  {
    var q := ToIndex(pixel);
    if pixel + 40 >= 0 {
      assert q * 80 <= pixel + 40 < q * 80 + 80;
      if q >= 8 { assert q * 80 >= 640; }
      if pixel >= 600 { assert q * 80 + 80 > 640; }
    } else {
      assert q * 80 - 80 < pixel + 40 <= q * 80;
      if q < 0 { assert q * 80 - 80 <= -160; }
      if pixel <= -120 { assert q * 80 <= -80; }
    }
  }
}

=== FILE: king.dfy ===
/** What the king's `canMove` decides: the enemy sweep read as "every
    enemy piece answers false", and the two branches of the king's rule. */
module KingFacts {
  import opened Base
  import opened Geometry
  import opened Pieces
  import opened Paths
  import opened Rules
  import opened Moves

  /** Enemy piece `k` answers true when asked to move onto the square. */
  predicate Attacks(ps: seq<Piece>, me: Piece, k: int, column: int, row: int, fuel: nat)
  {
    0 <= k < |ps| && ps[k].color != me.color && fuel > 0 &&
    var w := CanMove(ps, ps[k], column, row, fuel - 1);
    w.Some? && w.value.legal
  }

  /** Enemy piece `k` answers false when asked to move onto the square. */
  predicate Repels(ps: seq<Piece>, me: Piece, k: int, column: int, row: int, fuel: nat)
  {
    0 <= k < |ps| && ps[k].color != me.color && fuel > 0 &&
    var w := CanMove(ps, ps[k], column, row, fuel - 1);
    w.Some? && !w.value.legal
  }

  /** Enemy piece `k` cannot answer within the fuel bound. */
  predicate Overflows(ps: seq<Piece>, me: Piece, k: int, column: int, row: int, fuel: nat)
  {
    0 <= k < |ps| && ps[k].color != me.color &&
    (fuel == 0 || CanMove(ps, ps[k], column, row, fuel - 1).None?)
  }

  /** Every enemy piece from index `from` on answers false. */
  predicate SafeFrom(ps: seq<Piece>, me: Piece, column: int, row: int, fuel: nat, from: nat)
  {
    forall k :: from <= k < |ps| && ps[k].color != me.color ==> Repels(ps, me, k, column, row, fuel)
  }

  predicate Safe(ps: seq<Piece>, me: Piece, column: int, row: int, fuel: nat)
  {
    SafeFrom(ps, me, column, row, fuel, 0)
  }

  /** The sweep reports "not attacked" exactly when every enemy answers
      false, "attacked" only when some enemy answers true, and no answer
      only when some enemy could not answer. */
  lemma {:induction false} AttackedMeaning(ps: seq<Piece>, me: Piece, column: int, row: int, fuel: nat, from: nat)
    requires from <= |ps|
    ensures Attacked(ps, me, column, row, fuel, from) == Some(false) <==> SafeFrom(ps, me, column, row, fuel, from)
    ensures Attacked(ps, me, column, row, fuel, from) == Some(true) ==>
              exists k :: from <= k < |ps| && Attacks(ps, me, k, column, row, fuel)
    ensures Attacked(ps, me, column, row, fuel, from).None? ==>
              exists k :: from <= k < |ps| && Overflows(ps, me, k, column, row, fuel)
    decreases |ps| - from
  {
    if from < |ps| {
      AttackedMeaning(ps, me, column, row, fuel, from + 1);
      if ps[from].color != me.color {
        if fuel == 0 {
          assert Overflows(ps, me, from, column, row, fuel);
          assert !Repels(ps, me, from, column, row, fuel);
        } else {
          var w := CanMove(ps, ps[from], column, row, fuel - 1);
          if w.None? {
            assert Overflows(ps, me, from, column, row, fuel);
            assert !Repels(ps, me, from, column, row, fuel);
          } else if w.value.legal {
            assert Attacks(ps, me, from, column, row, fuel);
            assert !Repels(ps, me, from, column, row, fuel);
          } else {
            assert Repels(ps, me, from, column, row, fuel);
          }
        }
      }
    }
  }

  predicate IsLegal(o: Option<Verdict>)
  {
    o.Some? && o.value.legal
  }

  /** The king's rule: off the board it is refused with the capture left
      as it was; otherwise it is legal exactly for a one-square step onto a
      usable square that every enemy piece refuses to reach, or for a
      castling move. A step records its capture; castling keeps the
      mover's previous capture and names its partner. */
  lemma KingMoveMeaning(ps: seq<Piece>, me: Piece, column: int, row: int, fuel: nat)
    ensures !IsWithinBoard(column, row) ==> KingMove(ps, me, column, row, fuel) == Some(Verdict(false, me.hit, None))
    ensures IsLegal(KingMove(ps, me, column, row, fuel)) <==>
              IsWithinBoard(column, row) &&
              ((KingStepShape(me, column, row) && DestUsable(ps, me, column, row) && Safe(ps, me, column, row, fuel))
               || CastleRule(ps, me, column, row))
    ensures IsLegal(KingMove(ps, me, column, row, fuel)) && KingStepShape(me, column, row) ==>
              CaptureOnTarget(ps, me, column, row, KingMove(ps, me, column, row, fuel).value.hit) &&
              KingMove(ps, me, column, row, fuel).value.castling.None?
    ensures IsLegal(KingMove(ps, me, column, row, fuel)) && !KingStepShape(me, column, row) ==>
              KingMove(ps, me, column, row, fuel).value.hit == me.hit &&
              KingMove(ps, me, column, row, fuel).value.castling.Some?
    ensures IsWithinBoard(column, row) && KingStepShape(me, column, row) && !DestUsable(ps, me, column, row) ==>
              KingMove(ps, me, column, row, fuel) == Some(Verdict(false, None, None))
    ensures IsWithinBoard(column, row) && KingStepShape(me, column, row) && DestUsable(ps, me, column, row) &&
            KingMove(ps, me, column, row, fuel).Some? ==>
              CaptureOnTarget(ps, me, column, row, KingMove(ps, me, column, row, fuel).value.hit) &&
              KingMove(ps, me, column, row, fuel).value.castling.None?
    ensures IsWithinBoard(column, row) && !KingStepShape(me, column, row) ==>
              KingMove(ps, me, column, row, fuel) == Some(Castle(ps, me, column, row, me.hit))
    ensures KingMove(ps, me, column, row, fuel).None? ==>
              IsWithinBoard(column, row) && KingStepShape(me, column, row) &&
              DestUsable(ps, me, column, row) &&
              exists k :: 0 <= k < |ps| && Overflows(ps, me, k, column, row, fuel)
  {
    AttackedMeaning(ps, me, column, row, fuel, 0);
    if CastleRule(ps, me, column, row) {
      assert !KingStepShape(me, column, row);
    }
  }

  /** A verdict reached with some fuel is the verdict reached with any
      larger fuel: `None` only ever means that the nesting of enemy sweeps
      went deeper than the fuel allowed. */
  lemma {:induction false} CanMoveFuelMonotone(ps: seq<Piece>, me: Piece, column: int, row: int, fuel: nat, more: nat)
    requires fuel <= more
    ensures CanMove(ps, me, column, row, fuel).Some? ==>
              CanMove(ps, me, column, row, more) == CanMove(ps, me, column, row, fuel)
    decreases fuel, 1
  {
    if me.kind == King && IsWithinBoard(column, row) && KingStepShape(me, column, row) &&
       IsValidSquare(ps, me, column, row).ok {
      AttackedFuelMonotone(ps, me, column, row, fuel, more, 0);
    }
  }

  /** The enemy sweep's answer, once reached, does not change with more fuel. */
  lemma {:induction false} AttackedFuelMonotone(ps: seq<Piece>, me: Piece, column: int, row: int, fuel: nat, more: nat, from: nat)
    requires fuel <= more
    requires from <= |ps|
    ensures Attacked(ps, me, column, row, fuel, from).Some? ==>
              Attacked(ps, me, column, row, more, from) == Attacked(ps, me, column, row, fuel, from)
    decreases fuel, 0, |ps| - from
  {
    if from < |ps| {
      if ps[from].color == me.color {
        AttackedFuelMonotone(ps, me, column, row, fuel, more, from + 1);
      } else if fuel > 0 {
        CanMoveFuelMonotone(ps, ps[from], column, row, fuel - 1, more - 1);
        AttackedFuelMonotone(ps, me, column, row, fuel, more, from + 1);
      }
    }
  }

  /** When no enemy of the mover is a king, one unit of fuel always yields
      a verdict: only a king's sweep nests. */
  lemma {:induction false} NoEnemyKingDecides(ps: seq<Piece>, me: Piece, column: int, row: int, fuel: nat)
    requires fuel >= 1
    requires forall k :: 0 <= k < |ps| && ps[k].color != me.color ==> ps[k].kind != King
    ensures CanMove(ps, me, column, row, fuel).Some?
  {
    if me.kind == King && IsWithinBoard(column, row) && KingStepShape(me, column, row) &&
       IsValidSquare(ps, me, column, row).ok {
      NoEnemyKingSweep(ps, me, column, row, fuel, 0);
    }
  }

  lemma {:induction false} NoEnemyKingSweep(ps: seq<Piece>, me: Piece, column: int, row: int, fuel: nat, from: nat)
    requires fuel >= 1
    requires from <= |ps|
    requires forall k :: 0 <= k < |ps| && ps[k].color != me.color ==> ps[k].kind != King
    ensures Attacked(ps, me, column, row, fuel, from).Some?
    decreases |ps| - from
  {
    if from < |ps| {
      NoEnemyKingSweep(ps, me, column, row, fuel, from + 1);
    }
  }
}

=== FILE: legality.dfy ===
/** Properties that cut across the piece kinds. */
module Legality {
  import opened Base
  import opened Geometry
  import opened Pieces
  import opened Paths
  import opened Rules
  import opened Moves
  import opened KingFacts

  /** Off the board every kind answers false and leaves its capture as it was. */
  lemma OffBoardNeverLegal(ps: seq<Piece>, me: Piece, column: int, row: int, fuel: nat)
    requires !IsWithinBoard(column, row)
    ensures CanMove(ps, me, column, row, fuel) == Some(Verdict(false, me.hit, None))
  {
    KingMoveMeaning(ps, me, column, row, fuel);
  }

  /** A target whose other occupants are all of the mover's colour is
      refused by every kind, except by the two branches that do not consult
      the target's occupant: king castling and the pawn's diagonal step
      (which the en-passant test may accept). */
  lemma OwnOccupiedTargetRefused(ps: seq<Piece>, me: Piece, column: int, row: int, fuel: nat, k: int)
    requires OtherAt(ps, me, k, column, row)
    requires forall j :: OtherAt(ps, me, j, column, row) ==> ps[j].color == me.color
    requires me.kind == King ==> !CastleRule(ps, me, column, row)
    requires me.kind == Pawn ==> !(Abs(column - me.preColumn) == 1 && row == me.preRow + Forward(me.color))
    ensures CanMove(ps, me, column, row, fuel).Some?
    ensures !CanMove(ps, me, column, row, fuel).value.legal
  {
    OwnOccupantRefused(ps, me, column, row, k);
    KingMoveMeaning(ps, me, column, row, fuel);
  }

  /** A piece strictly between origin and target on the line of a
      rook-shaped move blocks the rook and the queen. */
  lemma StraightBlockerBlocks(ps: seq<Piece>, me: Piece, column: int, row: int, k: int)
    requires 0 <= k < |ps|
    requires RookShape(me, column, row)
    requires StraightBetween(me.preColumn, me.preRow, column, row, ps[k].column, ps[k].row)
    ensures !RookMove(ps, me, column, row).legal
    ensures !QueenMove(ps, me, column, row).legal
  {
  }

  /** A piece strictly between origin and target on the diagonal of a
      bishop-shaped move blocks the bishop and the queen. */
  lemma DiagonalBlockerBlocks(ps: seq<Piece>, me: Piece, column: int, row: int, k: int)
    requires 0 <= k < |ps|
    requires BishopShape(me, column, row)
    requires Between(me.preColumn, ps[k].column, column) && Between(me.preRow, ps[k].row, row)
    requires Abs(ps[k].column - me.preColumn) == Abs(ps[k].row - me.preRow)
    ensures !BishopMove(ps, me, column, row).legal
    ensures !QueenMove(ps, me, column, row).legal
  {
    DiagonalBetweenIsGeometric(me.preColumn, me.preRow, column, row, ps[k].column, ps[k].row);
  }

  lemma SquareIsNotTwo(n: nat)
    ensures n * n != 2
  {
    if n >= 2 {
      assert n * n >= 2 * n;
    }
  }

  /** The queen never makes a knight-shaped move. */
  lemma QueenNeverKnightShaped(ps: seq<Piece>, me: Piece, column: int, row: int)
    requires KnightShape(me, column, row)
    ensures !QueenMove(ps, me, column, row).legal
  {
    var dc := Abs(column - me.preColumn);
    var dr := Abs(row - me.preRow);
    SquareIsNotTwo(dc);
    assert dc != dr;
  }

  /** Changing a piece that stands off the target square does not change
      the first other occupant found on it. */
  lemma {:induction false} HittingPieceFrame(ps: seq<Piece>, me: Piece, column: int, row: int, from: nat, k: nat, p: Piece)
    requires from <= |ps| && k < |ps|
    requires !At(ps[k], column, row) && !At(p, column, row)
    ensures HittingPieceFrom(ps[k := p], me, column, row, from) == HittingPieceFrom(ps, me, column, row, from)
    decreases |ps| - from
  {
    if from < |ps| {
      HittingPieceFrame(ps, me, column, row, from + 1, k, p);
    }
  }

  /** The knight jumps: replacing any piece that is off the target square,
      for instance one standing between origin and target, changes neither
      its answer nor its capture. */
  lemma KnightIgnoresOtherSquares(ps: seq<Piece>, me: Piece, column: int, row: int, k: nat, p: Piece)
    requires k < |ps|
    requires !At(ps[k], column, row) && !At(p, column, row)
    ensures KnightMove(ps[k := p], me, column, row) == KnightMove(ps, me, column, row)
  {
    HittingPieceFrame(ps, me, column, row, 0, k, p);
  }

  /** Pawns only go forward: one or two rows in their colour's direction,
      at most one column aside, and two rows only straight from an unmoved
      state over an empty square. */
  lemma PawnForwardOnly(ps: seq<Piece>, me: Piece, column: int, row: int)
    requires PawnMove(ps, me, column, row).legal
    ensures row - me.preRow == Forward(me.color) || row - me.preRow == 2 * Forward(me.color)
    ensures Abs(column - me.preColumn) <= 1
    ensures row - me.preRow == 2 * Forward(me.color) ==>
              column == me.preColumn && !me.isMoved && NoOtherAt(ps, me, column, row) &&
              forall k :: 0 <= k < |ps| ==> !At(ps[k], column, me.preRow + Forward(me.color))
  {
    var d := Forward(me.color);
    if row - me.preRow == 2 * d {
      forall k | 0 <= k < |ps|
        ensures !At(ps[k], column, me.preRow + d)
      {
        assert StraightBetween(me.preColumn, me.preRow, column, row, column, me.preRow + d);
      }
    }
  }
}

=== FILE: moves.dfy ===
/** The per-kind `canMove` overrides. Each returns a `Verdict`: the
    boolean the source returns, the mover's `hittinPiece` afterwards (as a
    piece id; values the call does not overwrite are passed through from
    `me.hit`), and the castling partner the call stores into
    `GamePanel.castlingPiece`, if any. */
module Moves {
  import opened Base
  import opened Geometry
  import opened Pieces
  import opened Paths
  import opened Rules

  datatype Verdict = Verdict(legal: bool, hit: Option<nat>, castling: Option<nat>)

  /** Rook: along the origin's row or column, with a clear path. */
  function RookMove(ps: seq<Piece>, me: Piece, column: int, row: int): (v: Verdict)
    ensures v.legal <==> RookRule(ps, me, column, row)
    ensures v.legal ==> (column == me.preColumn) != (row == me.preRow)
    ensures v.legal ==> CaptureOnTarget(ps, me, column, row, v.hit)
    ensures !Entry(me, column, row) ==> v == Verdict(false, me.hit, None)
    ensures Entry(me, column, row) && !RookShape(me, column, row) ==> v == Verdict(false, me.hit, None)
    ensures Entry(me, column, row) && RookShape(me, column, row) && !DestUsable(ps, me, column, row) ==>
              v == Verdict(false, None, None)
    ensures Entry(me, column, row) && RookShape(me, column, row) && DestUsable(ps, me, column, row) &&
            !StraightClear(ps, me.preColumn, me.preRow, column, row) ==>
              !v.legal && StraightBlocker(ps, me, column, row, v.hit)
    ensures v.castling == None
  {
    if !(IsWithinBoard(column, row) && !IsSameSquare(me, column, row)) then Verdict(false, me.hit, None)
    else if !(column == me.preColumn || row == me.preRow) then Verdict(false, me.hit, None)
    else
      var p := IsValidSquare(ps, me, column, row);
      if !p.ok then Verdict(false, None, None)
      else match ScanStraight(ps, me.preColumn, me.preRow, column, row)
        case Some(b) => Verdict(false, Some(ps[b].id), None)
        case None => Verdict(true, IdAt(ps, p.hit), None)
  }

  /** Bishop: along a diagonal through the origin, with a clear path. */
  function BishopMove(ps: seq<Piece>, me: Piece, column: int, row: int): (v: Verdict)
    ensures v.legal <==> BishopRule(ps, me, column, row)
    ensures v.legal ==> Abs(column - me.preColumn) == Abs(row - me.preRow) >= 1
    ensures v.legal ==> CaptureOnTarget(ps, me, column, row, v.hit)
    ensures !Entry(me, column, row) ==> v == Verdict(false, me.hit, None)
    ensures Entry(me, column, row) && !BishopShape(me, column, row) ==> v == Verdict(false, me.hit, None)
    ensures Entry(me, column, row) && BishopShape(me, column, row) && !DestUsable(ps, me, column, row) ==>
              v == Verdict(false, None, None)
    ensures Entry(me, column, row) && BishopShape(me, column, row) && DestUsable(ps, me, column, row) &&
            !DiagonalClear(ps, me.preColumn, me.preRow, column, row) ==>
              !v.legal && DiagonalBlocker(ps, me, column, row, v.hit)
    ensures v.castling == None
  {
    if !(IsWithinBoard(column, row) && !IsSameSquare(me, column, row)) then Verdict(false, me.hit, None)
    else if Abs(column - me.preColumn) != Abs(row - me.preRow) then Verdict(false, me.hit, None)
    else
      var p := IsValidSquare(ps, me, column, row);
      if !p.ok then Verdict(false, None, None)
      else match ScanDiagonal(ps, me.preColumn, me.preRow, column, row)
        case Some(b) => Verdict(false, Some(ps[b].id), None)
        case None => Verdict(true, IdAt(ps, p.hit), None)
  }

  /** Queen: the rook test first, then the bishop test. */
  function QueenMove(ps: seq<Piece>, me: Piece, column: int, row: int): (v: Verdict)
    ensures v.legal <==> QueenRule(ps, me, column, row)
    ensures v.legal ==> CaptureOnTarget(ps, me, column, row, v.hit)
    ensures !Entry(me, column, row) ==> v == Verdict(false, me.hit, None)
    ensures Entry(me, column, row) && RookShape(me, column, row) ==> v == RookMove(ps, me, column, row)
    ensures Entry(me, column, row) && !RookShape(me, column, row) ==> v == BishopMove(ps, me, column, row)
    ensures Entry(me, column, row) && !RookShape(me, column, row) && !BishopShape(me, column, row) ==>
              v == Verdict(false, me.hit, None)
    ensures v.castling == None
  {
    if !(IsWithinBoard(column, row) && !IsSameSquare(me, column, row)) then Verdict(false, me.hit, None)
    else
      var straight :=
        if column == me.preColumn || row == me.preRow then
          var p := IsValidSquare(ps, me, column, row);
          if !p.ok then Verdict(false, None, None)
          else match ScanStraight(ps, me.preColumn, me.preRow, column, row)
            case Some(b) => Verdict(false, Some(ps[b].id), None)
            case None => Verdict(true, IdAt(ps, p.hit), None)
        else Verdict(false, me.hit, None);
      if straight.legal then straight
      else if Abs(column - me.preColumn) == Abs(row - me.preRow) then
        var p := IsValidSquare(ps, me, column, row);
        if !p.ok then Verdict(false, None, None)
        else match ScanDiagonal(ps, me.preColumn, me.preRow, column, row)
          case Some(b) => Verdict(false, Some(ps[b].id), None)
          case None => Verdict(true, IdAt(ps, p.hit), None)
      else straight
  }

  /** Knight: an L-shaped jump; nothing between origin and target matters
      and there is no same-square test (the product is 0 there anyway). */
  function KnightMove(ps: seq<Piece>, me: Piece, column: int, row: int): (v: Verdict)
    ensures v.legal <==> KnightRule(ps, me, column, row)
    ensures v.legal ==> CaptureOnTarget(ps, me, column, row, v.hit)
    ensures v.legal ==> !IsSameSquare(me, column, row)
    ensures !IsWithinBoard(column, row) ==> v == Verdict(false, me.hit, None)
    ensures IsWithinBoard(column, row) && !KnightShape(me, column, row) ==> v == Verdict(false, me.hit, None)
    ensures IsWithinBoard(column, row) && KnightShape(me, column, row) && !DestUsable(ps, me, column, row) ==>
              v == Verdict(false, None, None)
    ensures v.castling == None
  {
    if !IsWithinBoard(column, row) then Verdict(false, me.hit, None)
    else if Abs(column - me.preColumn) * Abs(row - me.preRow) != 2 then Verdict(false, me.hit, None)
    else
      var p := IsValidSquare(ps, me, column, row);
      Verdict(p.ok, IdAt(ps, p.hit), None)
  }

  /** First index from `from` of a piece that may be taken en passant on
      (column, row). */
  function FirstEnPassant(ps: seq<Piece>, column: int, row: int, from: nat): (r: Option<nat>)
    requires from <= |ps|
    ensures r.Some? ==> from <= r.value && EnPassantVictim(ps, r.value, column, row)
    ensures r.Some? ==> forall j :: from <= j < r.value ==> !EnPassantVictim(ps, j, column, row)
    ensures r.None? ==> forall j :: from <= j < |ps| ==> !EnPassantVictim(ps, j, column, row)
    decreases |ps| - from
  {
    if from == |ps| then None
    else if At(ps[from], column, row) && ps[from].isTwoStepped then Some(from)
    else FirstEnPassant(ps, column, row, from + 1)
  }

  /** Pawn: one step forward onto an empty square, two steps from an
      unmoved state over an empty square, a diagonal step onto an enemy, or
      a diagonal step beside a piece that has just double-stepped. */
  function PawnMove(ps: seq<Piece>, me: Piece, column: int, row: int): (v: Verdict)
    ensures v.legal <==> PawnRule(ps, me, column, row)
    ensures !Entry(me, column, row) ==> v == Verdict(false, me.hit, None)
    ensures v.legal && column == me.preColumn ==> v.hit == None
    ensures v.legal && column != me.preColumn && !NoOtherAt(ps, me, column, row) &&
            DestUsable(ps, me, column, row) ==>
              v.hit.Some? && CaptureOnTarget(ps, me, column, row, v.hit)
    ensures v.legal && column != me.preColumn &&
            !(!NoOtherAt(ps, me, column, row) && DestUsable(ps, me, column, row)) ==>
              exists k :: 0 <= k < |ps| && IsFirstEnPassantVictim(ps, k, column, me.preRow) &&
                          v.hit == Some(ps[k].id)
    ensures Entry(me, column, row) && !v.legal && !PawnTwoStepBlocked(ps, me, column, row) ==>
              OccupantOnTarget(ps, me, column, row, v.hit)
    ensures Entry(me, column, row) && PawnTwoStepBlocked(ps, me, column, row) ==>
              !v.legal && StraightBlocker(ps, me, column, row, v.hit)
    ensures v.castling == None
  {
    if !(IsWithinBoard(column, row) && !IsSameSquare(me, column, row)) then Verdict(false, me.hit, None)
    else
      var d := Forward(me.color);
      var h0 := GetHittingPiece(ps, me, column, row);
      if column == me.preColumn && row == me.preRow + d && h0.None? then Verdict(true, None, None)
      else
        var twoShape := column == me.preColumn && row == me.preRow + d * 2 && h0.None? && !me.isMoved;
        var scan := if twoShape then ScanStraight(ps, me.preColumn, me.preRow, column, row) else None;
        if twoShape && scan.None? then Verdict(true, None, None)
        else
          var h1 := if twoShape then scan else h0;
          if Abs(column - me.preColumn) == 1 && row == me.preRow + d && h1.Some? &&
             ps[h1.value].color != me.color then
            Verdict(true, IdAt(ps, h1), None)
          else if Abs(column - me.preColumn) == 1 && row == me.preRow + d then
            match FirstEnPassant(ps, column, me.preRow, 0)
            case Some(k) => Verdict(true, Some(ps[k].id), None)
            case None => Verdict(false, IdAt(ps, h1), None)
          else Verdict(false, IdAt(ps, h1), None)
  }

  /** First index from `from` of an unmoved piece three columns right of
      the king's origin (the king-side castling loop). */
  function KingSidePartner(ps: seq<Piece>, me: Piece, from: nat): (r: Option<nat>)
    requires from <= |ps|
    ensures r.Some? ==> from <= r.value && KingSideRook(ps, me, r.value)
    ensures r.Some? ==> forall j :: from <= j < r.value ==> !KingSideRook(ps, me, j)
    ensures r.None? ==> forall j :: from <= j < |ps| ==> !KingSideRook(ps, me, j)
    decreases |ps| - from
  {
    if from == |ps| then None
    else if At(ps[from], me.preColumn + 3, me.preRow) && !ps[from].isMoved then Some(from)
    else KingSidePartner(ps, me, from + 1)
  }

  /** The queen-side castling loop as written: `near` records whether a
      piece three columns left has been met, `far` the last piece met four
      columns left; after every element the loop succeeds if no near piece
      was met and the far piece is unmoved. */
  function QueenSideScan(ps: seq<Piece>, me: Piece, from: nat, near: bool, far: Option<nat>): (r: Option<nat>)
    requires from <= |ps|
    requires far.Some? ==> far.value < from
    ensures r.Some? ==> r.value < |ps|
    decreases |ps| - from
  {
    if from == |ps| then None
    else
      var near' := near || At(ps[from], me.preColumn - 3, me.preRow);
      var far' := if At(ps[from], me.preColumn - 4, me.preRow) then Some(from) else far;
      if !near' && far'.Some? && !ps[far'.value].isMoved then far'
      else QueenSideScan(ps, me, from + 1, near', far')
  }

  /** The queen-side loop finds exactly the first partner the declarative
      rule admits, and fails exactly when there is none. */
  lemma {:induction false} QueenSideScanFindsFirst(ps: seq<Piece>, me: Piece, from: nat, near: bool, far: Option<nat>)
    requires from <= |ps|
    requires far.Some? ==> far.value < from
    requires near <==> exists k :: 0 <= k < from && At(ps[k], me.preColumn - 3, me.preRow)
    requires far.Some? ==> At(ps[far.value], me.preColumn - 4, me.preRow)
    requires forall j :: 0 <= j < from ==> !QueenSideRook(ps, me, j)
    ensures var r := QueenSideScan(ps, me, from, near, far);
            (r.Some? ==> IsFirstQueenSideRook(ps, me, r.value)) &&
            (r.None? ==> forall j :: 0 <= j < |ps| ==> !QueenSideRook(ps, me, j))
    decreases |ps| - from
  {
    if from < |ps| {
      var near' := near || At(ps[from], me.preColumn - 3, me.preRow);
      var far' := if At(ps[from], me.preColumn - 4, me.preRow) then Some(from) else far;
      if !near' && far'.Some? && !ps[far'.value].isMoved {
        if far'.value < from {
          assert QueenSideRook(ps, me, far'.value);
          assert false;
        }
        assert QueenSideRook(ps, me, from);
      } else {
        assert near' <==> exists k :: 0 <= k < from + 1 && At(ps[k], me.preColumn - 3, me.preRow);
        QueenSideScanFindsFirst(ps, me, from + 1, near', far');
      }
    }
  }

  /** The castling branch of the king's `canMove`, entered with `hit`
      holding the mover's `hittinPiece` at that point. The branch never
      clears it and never looks at the target square. */
  function Castle(ps: seq<Piece>, me: Piece, column: int, row: int, hit: Option<nat>): (v: Verdict)
    ensures v.legal <==> CastleRule(ps, me, column, row)
    ensures !CastlePathBlocked(ps, me, column, row) ==> v.hit == hit
    ensures CastlePathBlocked(ps, me, column, row) ==> !v.legal && StraightBlocker(ps, me, column, row, v.hit)
    ensures v.legal ==>
      (v.castling.Some? &&
       exists j :: 0 <= j < |ps| && ps[j].id == v.castling.value &&
         ((column == me.preColumn + 2 && IsFirstKingSideRook(ps, me, j)) ||
          (column == me.preColumn - 2 && IsFirstQueenSideRook(ps, me, j))))
    ensures !v.legal ==> v.castling.None?
  {
    if me.isMoved then Verdict(false, hit, None)
    else
      var kingSide := column == me.preColumn + 2 && row == me.preRow;
      var kingScan := if kingSide then ScanStraight(ps, me.preColumn, me.preRow, column, row) else None;
      var hit1 := if kingScan.Some? then Some(ps[kingScan.value].id) else hit;
      var kingPartner := if kingSide && kingScan.None? then KingSidePartner(ps, me, 0) else None;
      if kingPartner.Some? then Verdict(true, hit1, Some(ps[kingPartner.value].id))
      else
        var queenSide := column == me.preColumn - 2 && row == me.preRow;
        var queenScan := if queenSide then ScanStraight(ps, me.preColumn, me.preRow, column, row) else None;
        var hit2 := if queenScan.Some? then Some(ps[queenScan.value].id) else hit1;
        var queenPartner :=
          if queenSide && queenScan.None? then
            QueenSideScanFindsFirst(ps, me, 0, false, None);
            QueenSideScan(ps, me, 0, false, None)
          else None;
        if queenPartner.Some? then Verdict(true, hit2, Some(ps[queenPartner.value].id))
        else Verdict(false, hit2, None)
  }

  /** `canMove` dispatched on the piece's kind. Only the king can fail to
      produce a verdict: `None` means the king's enemy sweep nested deeper
      than `fuel` (in the source, an unbounded recursion). */
  function CanMove(ps: seq<Piece>, me: Piece, column: int, row: int, fuel: nat): (r: Option<Verdict>)
    ensures me.kind != King ==> r.Some? && r.value.castling.None?
    ensures r.Some? && r.value.legal ==> IsWithinBoard(column, row)
    decreases fuel, 2, 0
  {
    match me.kind
    case Pawn => Some(PawnMove(ps, me, column, row))
    case Rook => Some(RookMove(ps, me, column, row))
    case Knight => Some(KnightMove(ps, me, column, row))
    case Bishop => Some(BishopMove(ps, me, column, row))
    case Queen => Some(QueenMove(ps, me, column, row))
    case King => KingMove(ps, me, column, row, fuel)
  }

  /** King: a one-square step onto a usable square that no enemy piece can
      reach (the sweep asks every enemy's `canMove`), or castling. */
  function KingMove(ps: seq<Piece>, me: Piece, column: int, row: int, fuel: nat): (r: Option<Verdict>)
    ensures r.Some? && r.value.legal ==> IsWithinBoard(column, row)
    decreases fuel, 1, 0
  {
    if !IsWithinBoard(column, row) then Some(Verdict(false, me.hit, None))
    else if KingStepShape(me, column, row) then
      var p := IsValidSquare(ps, me, column, row);
      if p.ok then
        match Attacked(ps, me, column, row, fuel, 0)
        case None => None
        case Some(attacked) => Some(Verdict(!attacked, IdAt(ps, p.hit), None))
      else Some(Castle(ps, me, column, row, None))
    else Some(Castle(ps, me, column, row, me.hit))
  }

  /** The enemy sweep from index `from`, stopping at the first enemy piece
      whose `canMove` onto the target is true. Each nested `canMove` gets
      one unit less of fuel. */
  function Attacked(ps: seq<Piece>, me: Piece, column: int, row: int, fuel: nat, from: nat): (r: Option<bool>)
    requires from <= |ps|
    ensures r == Some(true) ==> exists k :: from <= k < |ps| && ps[k].color != me.color
    ensures (forall k :: from <= k < |ps| ==> ps[k].color == me.color) ==> r == Some(false)
    decreases fuel, 0, |ps| - from
  {
    if from == |ps| then Some(false)
    else if ps[from].color == me.color then Attacked(ps, me, column, row, fuel, from + 1)
    else if fuel == 0 then None
    else match CanMove(ps, ps[from], column, row, fuel - 1)
      case None => None
      case Some(w) => if w.legal then Some(true) else Attacked(ps, me, column, row, fuel, from + 1)
  }
}

=== FILE: paths.dfy ===
/** The path scans `pieceIsOnStraightLine` and `pieceIsOnDiagonalLine`:
    the squares strictly between a piece's origin and a target are visited
    in the source's loop order, and for each square the piece list is
    searched in list order. Occupancy is read from current squares and the
    mover itself is not excluded. */
module Paths {
  import opened Base
  import opened Pieces

  datatype Square = Square(column: int, row: int)

  /** x lies strictly between a and b (in either order). */
  predicate Between(a: int, x: int, b: int)
  {
    a < x < b || b < x < a
  }

  /** hi, hi-1, ..., lo+1: a loop `for (c = hi; c > lo; c--)`. */
  function DescRange(hi: int, lo: int): (r: seq<int>)
    ensures forall x :: x in r <==> lo < x <= hi
    decreases hi - lo
  {
    if hi <= lo then [] else [hi] + DescRange(hi - 1, lo)
  }

  /** lo, lo+1, ..., hi-1: a loop `for (c = lo; c < hi; c++)`. */
  function AscRange(lo: int, hi: int): (r: seq<int>)
    ensures forall x :: x in r <==> lo <= x < hi
    decreases hi - lo
  {
    if lo >= hi then [] else [lo] + AscRange(lo + 1, hi)
  }

  function RowSquares(columns: seq<int>, row: int): (r: seq<Square>)
    ensures forall s: Square :: s in r <==> s.row == row && s.column in columns
  {
    var r := seq(|columns|, k requires 0 <= k < |columns| => Square(columns[k], row));
    forall s: Square | s.row == row && s.column in columns ensures s in r {
      var k :| 0 <= k < |columns| && columns[k] == s.column;
      assert r[k] == s;
    }
    r
  }

  function ColumnSquares(column: int, rows: seq<int>): (r: seq<Square>)
    ensures forall s: Square :: s in r <==> s.column == column && s.row in rows
  {
    var r := seq(|rows|, k requires 0 <= k < |rows| => Square(column, rows[k]));
    forall s: Square | s.column == column && s.row in rows ensures s in r {
      var k :| 0 <= k < |rows| && rows[k] == s.row;
      assert r[k] == s;
    }
    r
  }

  /** Row reached after stepping from (preColumn, preRow) to column c along a
      diagonal that goes up (towards row 0) or down. */
  function DiagonalRow(preColumn: int, preRow: int, up: bool, c: int): int
  {
    if up then preRow - Abs(c - preColumn) else preRow + Abs(c - preColumn)
  }

  function DiagonalSquares(columns: seq<int>, preColumn: int, preRow: int, up: bool): (r: seq<Square>)
    ensures forall s: Square :: s in r <==>
      s.column in columns && s.row == DiagonalRow(preColumn, preRow, up, s.column)
  {
    var r := seq(|columns|, k requires 0 <= k < |columns| =>
      Square(columns[k], DiagonalRow(preColumn, preRow, up, columns[k])));
    forall s: Square | s.column in columns && s.row == DiagonalRow(preColumn, preRow, up, s.column)
      ensures s in r
    {
      var k :| 0 <= k < |columns| && columns[k] == s.column;
      assert r[k] == s;
    }
    r
  }

  /** The squares `pieceIsOnStraightLine` visits, in its order: leftwards
      and rightwards along the target row, then upwards and downwards along
      the target column. */
  function StraightSquares(preColumn: int, preRow: int, column: int, row: int): seq<Square>
  {
    RowSquares(DescRange(preColumn - 1, column), row)
    + RowSquares(AscRange(preColumn + 1, column), row)
    + ColumnSquares(column, DescRange(preRow - 1, row))
    + ColumnSquares(column, AscRange(preRow + 1, row))
  }

  /** The squares `pieceIsOnDiagonalLine` visits, in its order: the
      direction is chosen by the sign of the row delta, then the columns
      are walked leftwards and rightwards. */
  function DiagonalSquares4(preColumn: int, preRow: int, column: int, row: int): seq<Square>
  {
    (if row < preRow then
       DiagonalSquares(DescRange(preColumn - 1, column), preColumn, preRow, true)
       + DiagonalSquares(AscRange(preColumn + 1, column), preColumn, preRow, true)
     else [])
    + (if row > preRow then
         DiagonalSquares(DescRange(preColumn - 1, column), preColumn, preRow, false)
         + DiagonalSquares(AscRange(preColumn + 1, column), preColumn, preRow, false)
       else [])
  }

  /** (c, r) is one of the squares the straight scan looks at. */
  predicate StraightBetween(preColumn: int, preRow: int, column: int, row: int, c: int, r: int)
  {
    (r == row && Between(preColumn, c, column)) || (c == column && Between(preRow, r, row))
  }

  /** (c, r) is one of the squares the diagonal scan looks at. */
  predicate DiagonalBetween(preColumn: int, preRow: int, column: int, row: int, c: int, r: int)
  {
    Between(preColumn, c, column) &&
    ((row < preRow && r == preRow - Abs(c - preColumn)) ||
     (row > preRow && r == preRow + Abs(c - preColumn)))
  }

  lemma StraightSquaresExact(preColumn: int, preRow: int, column: int, row: int, s: Square)
    ensures s in StraightSquares(preColumn, preRow, column, row) <==>
              StraightBetween(preColumn, preRow, column, row, s.column, s.row)
  {
  }

  lemma DiagonalSquaresExact(preColumn: int, preRow: int, column: int, row: int, s: Square)
    ensures s in DiagonalSquares4(preColumn, preRow, column, row) <==>
              DiagonalBetween(preColumn, preRow, column, row, s.column, s.row)
  {
  }

  /** On a true diagonal move the scanned squares are exactly the squares
      strictly between origin and target on that diagonal. */
  lemma DiagonalBetweenIsGeometric(preColumn: int, preRow: int, column: int, row: int, c: int, r: int)
    requires Abs(column - preColumn) == Abs(row - preRow)
    ensures DiagonalBetween(preColumn, preRow, column, row, c, r) <==>
              Between(preColumn, c, column) && Between(preRow, r, row) &&
              Abs(c - preColumn) == Abs(r - preRow)
  {
  }

  /** First index from `from` of a piece (any piece, the mover included)
      currently standing on `s`. */
  function FirstAt(ps: seq<Piece>, s: Square, from: nat): (r: Option<nat>)
    requires from <= |ps|
    ensures r.Some? ==> from <= r.value < |ps| && At(ps[r.value], s.column, s.row)
    ensures r.None? ==> forall k :: from <= k < |ps| ==> !At(ps[k], s.column, s.row)
    decreases |ps| - from
  {
    if from == |ps| then None
    else if At(ps[from], s.column, s.row) then Some(from)
    else FirstAt(ps, s, from + 1)
  }

  /** Square by square, the first piece found on any of `squares`. */
  function FirstOnSquares(ps: seq<Piece>, squares: seq<Square>): (r: Option<nat>)
    ensures r.Some? ==> r.value < |ps| && Square(ps[r.value].column, ps[r.value].row) in squares
    ensures r.None? ==> forall k :: 0 <= k < |ps| ==> Square(ps[k].column, ps[k].row) !in squares
  {
    if |squares| == 0 then None
    else match FirstAt(ps, squares[0], 0)
      case Some(k) => Some(k)
      case None =>
        var r := FirstOnSquares(ps, squares[1..]);
        assert forall s: Square :: s in squares ==> s == squares[0] || s in squares[1..];
        r
  }

  /** No piece stands strictly between origin and target on the straight line. */
  predicate StraightClear(ps: seq<Piece>, preColumn: int, preRow: int, column: int, row: int)
  {
    forall k :: 0 <= k < |ps| ==>
      !StraightBetween(preColumn, preRow, column, row, ps[k].column, ps[k].row)
  }

  /** No piece stands strictly between origin and target on the diagonal. */
  predicate DiagonalClear(ps: seq<Piece>, preColumn: int, preRow: int, column: int, row: int)
  {
    forall k :: 0 <= k < |ps| ==>
      !DiagonalBetween(preColumn, preRow, column, row, ps[k].column, ps[k].row)
  }

  /** `pieceIsOnStraightLine`: `Some(k)` when it returns true, `k` being the
      piece it stores in `hittinPiece`; `None` when it returns false. */
  function ScanStraight(ps: seq<Piece>, preColumn: int, preRow: int, column: int, row: int): (r: Option<nat>)
    ensures r.Some? ==>
      r.value < |ps| &&
      StraightBetween(preColumn, preRow, column, row, ps[r.value].column, ps[r.value].row)
    ensures r.None? <==> StraightClear(ps, preColumn, preRow, column, row)
  {
    var r := FirstOnSquares(ps, StraightSquares(preColumn, preRow, column, row));
    forall k | 0 <= k < |ps|
      ensures Square(ps[k].column, ps[k].row) in StraightSquares(preColumn, preRow, column, row)
        <==> StraightBetween(preColumn, preRow, column, row, ps[k].column, ps[k].row)
    {
      StraightSquaresExact(preColumn, preRow, column, row, Square(ps[k].column, ps[k].row));
    }
    r
  }

  /** `pieceIsOnDiagonalLine`, in the same shape as `ScanStraight`. */
  function ScanDiagonal(ps: seq<Piece>, preColumn: int, preRow: int, column: int, row: int): (r: Option<nat>)
    ensures r.Some? ==>
      r.value < |ps| &&
      DiagonalBetween(preColumn, preRow, column, row, ps[r.value].column, ps[r.value].row)
    ensures r.None? <==> DiagonalClear(ps, preColumn, preRow, column, row)
  {
    var r := FirstOnSquares(ps, DiagonalSquares4(preColumn, preRow, column, row));
    forall k | 0 <= k < |ps|
      ensures Square(ps[k].column, ps[k].row) in DiagonalSquares4(preColumn, preRow, column, row)
        <==> DiagonalBetween(preColumn, preRow, column, row, ps[k].column, ps[k].row)
    {
      DiagonalSquaresExact(preColumn, preRow, column, row, Square(ps[k].column, ps[k].row));
    }
    r
  }
}

=== FILE: pieces.dfy ===
/** The piece record and the predicates every kind of piece shares:
    occupancy of the destination, the non-move test, and committing or
    cancelling a dragged position. */
module Pieces {
  import opened Base
  import opened Geometry

  datatype Color = White | Black

  /** The six piece types. */
  datatype Kind = Pawn | Rook | Knight | Bishop | Queen | King

  /** One piece. `id` stands for Java object identity; `column/row` is the
      current square (the dragged square while a move is simulated) and
      `preColumn/preRow` the square of the last committed move, which every
      legality rule uses as its origin. `hit` is the piece's `hittinPiece`
      field: the id of the piece the last evaluated move would capture. */
  datatype Piece = Piece(
    id: nat,
    kind: Kind,
    color: Color,
    column: int,
    row: int,
    preColumn: int,
    preRow: int,
    isMoved: bool,
    isTwoStepped: bool,
    hit: Option<nat>)

  /** A freshly constructed piece: both coordinate pairs on the given
      square, no history, no capture recorded. */
  function NewPiece(id: nat, kind: Kind, color: Color, column: int, row: int): (p: Piece)
    ensures p.column == p.preColumn == column && p.row == p.preRow == row
    ensures !p.isMoved && !p.isTwoStepped && p.hit == None
    ensures p.id == id && p.kind == kind && p.color == color
  {
    Piece(id, kind, color, column, row, column, row, false, false, None)
  }

  /** The piece currently stands on (column, row). */
  predicate At(p: Piece, column: int, row: int)
  {
    p.column == column && p.row == row
  }

  /** `isSameSequare`: the target is the origin of the move. */
  predicate IsSameSquare(me: Piece, column: int, row: int)
  {
    column == me.preColumn && row == me.preRow
  }

  /** Entry `k` of `ps` is a piece other than `me` standing on (column, row). */
  predicate OtherAt(ps: seq<Piece>, me: Piece, k: int, column: int, row: int)
  {
    0 <= k < |ps| && ps[k].id != me.id && At(ps[k], column, row)
  }

  predicate NoOtherAt(ps: seq<Piece>, me: Piece, column: int, row: int)
  {
    forall k :: 0 <= k < |ps| ==> !OtherAt(ps, me, k, column, row)
  }

  /** Entry `k` is the first piece other than `me` on the square, in list order. */
  predicate IsFirstOtherAt(ps: seq<Piece>, me: Piece, k: int, column: int, row: int)
  {
    OtherAt(ps, me, k, column, row) &&
    forall j :: 0 <= j < k ==> !OtherAt(ps, me, j, column, row)
  }

  /** The destination may be entered: either nobody else stands on it, or
      the first other occupant found there is of the opposite colour. */
  predicate DestUsable(ps: seq<Piece>, me: Piece, column: int, row: int)
  {
    forall k :: 0 <= k < |ps| && IsFirstOtherAt(ps, me, k, column, row) ==> ps[k].color != me.color
  }

  /** `getHittingPiece`: index of the first piece other than `me` that
      currently stands on (column, row), scanning from index `from`. */
  function HittingPieceFrom(ps: seq<Piece>, me: Piece, column: int, row: int, from: nat): (r: Option<nat>)
    requires from <= |ps|
    ensures r.Some? ==> from <= r.value < |ps| && OtherAt(ps, me, r.value, column, row)
    ensures r.Some? ==> forall j :: from <= j < r.value ==> !OtherAt(ps, me, j, column, row)
    ensures r.None? ==> forall j :: from <= j < |ps| ==> !OtherAt(ps, me, j, column, row)
    decreases |ps| - from
  {
    if from == |ps| then None
    else if At(ps[from], column, row) && ps[from].id != me.id then Some(from)
    else HittingPieceFrom(ps, me, column, row, from + 1)
  }

  /** `getHittingPiece` over the whole list: never `me` itself, always a
      piece standing on the square, and the first one in list order. */
  function GetHittingPiece(ps: seq<Piece>, me: Piece, column: int, row: int): (r: Option<nat>)
    ensures r.Some? ==> IsFirstOtherAt(ps, me, r.value, column, row)
    ensures r.Some? ==> ps[r.value].id != me.id && At(ps[r.value], column, row)
    ensures r.None? <==> NoOtherAt(ps, me, column, row)
  {
    HittingPieceFrom(ps, me, column, row, 0)
  }

  /** Outcome of `isValidSequare`: whether the destination may be entered
      and the index of the piece it would capture (the new `hittinPiece`). */
  datatype Probe = Probe(ok: bool, hit: Option<nat>)

  /** `isValidSequare`: empty destination, enemy occupant (captured), or
      own occupant (refused, and no capture recorded). */
  function IsValidSquare(ps: seq<Piece>, me: Piece, column: int, row: int): (r: Probe)
    ensures r.ok <==> DestUsable(ps, me, column, row)
    ensures NoOtherAt(ps, me, column, row) ==> r == Probe(true, None)
    ensures r.hit.Some? ==> r.ok && IsFirstOtherAt(ps, me, r.hit.value, column, row)
    ensures r.hit.Some? ==> ps[r.hit.value].color != me.color
    ensures r.ok && r.hit.None? ==> NoOtherAt(ps, me, column, row)
    ensures !r.ok ==> r.hit.None?
  {
    match GetHittingPiece(ps, me, column, row)
    case None => Probe(true, None)
    case Some(k) => if ps[k].color != me.color then Probe(true, Some(k)) else Probe(false, None)
  }

  /** Same-colour occupancy refuses the destination whenever every other
      piece on the square is of the mover's colour. */
  lemma OwnOccupantRefused(ps: seq<Piece>, me: Piece, column: int, row: int, k: int)
    requires OtherAt(ps, me, k, column, row)
    requires forall j :: OtherAt(ps, me, j, column, row) ==> ps[j].color == me.color
    ensures !DestUsable(ps, me, column, row)
    ensures !IsValidSquare(ps, me, column, row).ok
  {
    var f := GetHittingPiece(ps, me, column, row);
    assert f.Some?;
    assert IsFirstOtherAt(ps, me, f.value, column, row);
  }

  /** Id of the piece at an optional index. */
  function IdAt(ps: seq<Piece>, k: Option<nat>): (r: Option<nat>)
    requires k.Some? ==> k.value < |ps|
    ensures r.None? <==> k.None?
    ensures k.Some? ==> r == Some(ps[k.value].id)
  {
    match k
    case None => None
    case Some(i) => Some(ps[i].id)
  }

  /** `getX`: the pixel column of the piece. Its parameter is ignored: the
      piece's own `column` is used whatever is passed. */
  function GetX(p: Piece, column: int): (x: int)
    ensures p.column >= 0 ==> ToIndex(x) == p.column
  {
    ToPixel(p.column)
  }

  /** The argument of `getX` makes no difference to its result. */
  lemma GetXIgnoresArgument(p: Piece, column: int, other: int)
    ensures GetX(p, column) == GetX(p, other)
  {
  }

  /** `getY`: the pixel row of the given row index. */
  function GetY(row: int): (y: int)
    ensures row >= 0 ==> ToIndex(y) == row
  {
    SnapIfNatural(row);
    ToPixel(row)
  }

  /** `updatePosition`: commit the current square as the new origin. The
      origin is recomputed through pixels, as in the source, and a pawn that
      moved two rows gets its en-passant flag. */
  function UpdatePosition(p: Piece): (q: Piece)
    ensures p.column >= 0 && p.row >= 0 ==> q.preColumn == p.column && q.preRow == p.row
    ensures q.isMoved
    ensures q.isTwoStepped <==> p.isTwoStepped || (p.kind == Pawn && Abs(p.row - p.preRow) == 2)
    ensures q.(preColumn := p.preColumn, preRow := p.preRow, isMoved := p.isMoved,
               isTwoStepped := p.isTwoStepped) == p
  {
    SnapIfNatural(p.column);
    SnapIfNatural(p.row);
    var twoStepped := if p.kind == Pawn && Abs(p.row - p.preRow) == 2 then true else p.isTwoStepped;
    p.(isTwoStepped := twoStepped,
       preColumn := ToIndex(GetX(p, p.column)),
       preRow := ToIndex(GetY(p.row)),
       isMoved := true)
  }

  lemma SnapIfNatural(index: int)
    ensures index >= 0 ==> ToIndex(ToPixel(index)) == index
  {
    if index >= 0 { SnapRoundTrip(index); }
  }

  /** `resetPosition`: move the piece back onto its origin. */
  function ResetPosition(p: Piece): (q: Piece)
    ensures At(q, p.preColumn, p.preRow)
    ensures q.(column := p.column, row := p.row) == p
  {
    p.(column := p.preColumn, row := p.preRow)
  }

  /** Drag a piece onto a square (what the controller does before it asks
      for legality). */
  function Drag(p: Piece, column: int, row: int): (q: Piece)
    ensures At(q, column, row)
    ensures q.(column := p.column, row := p.row) == p
  {
    p.(column := column, row := row)
  }

  /** Cancelling a drag restores a resting piece exactly. */
  lemma DragThenResetRestores(p: Piece, column: int, row: int)
    requires At(p, p.preColumn, p.preRow)
    ensures ResetPosition(Drag(p, column, row)) == p
  {
  }

  /** Committing a drag onto a board square makes that square the origin,
      so the piece is no longer "on the same square" anywhere else. */
  lemma DragThenCommit(p: Piece, column: int, row: int)
    requires IsWithinBoard(column, row)
    ensures var q := UpdatePosition(Drag(p, column, row));
            IsSameSquare(q, column, row) && At(q, column, row) && q.isMoved
  {
  }

  /** `getIndex`: position of the piece with the given id in an id list, or
      0 when it is absent. */
  function GetIndex(ids: seq<nat>, id: nat): (r: nat)
    ensures id in ids ==> r < |ids| && ids[r] == id && id !in ids[..r]
    ensures id !in ids ==> r == 0
  {
    if |ids| == 0 then 0
    else if ids[0] == id then 0
    else if id in ids[1..] then
      assert ids[1..][..GetIndex(ids[1..], id)] == ids[1..GetIndex(ids[1..], id) + 1];
      GetIndex(ids[1..], id) + 1
    else 0
  }
}

=== FILE: rules.dfy ===
/** Declarative statements of when each kind of piece may move, written
    with quantifiers over the board rather than with the source's scans.
    The functions in module Moves are proved to agree with them. */
module Rules {
  import opened Base
  import opened Geometry
  import opened Pieces
  import opened Paths

  /** Row direction of a pawn's advance: white moves towards row 0. */
  function Forward(color: Color): int
  {
    if color == White then -1 else 1
  }

  predicate RookShape(me: Piece, column: int, row: int)
  {
    column == me.preColumn || row == me.preRow
  }

  predicate BishopShape(me: Piece, column: int, row: int)
  {
    Abs(column - me.preColumn) == Abs(row - me.preRow)
  }

  predicate KnightShape(me: Piece, column: int, row: int)
  {
    Abs(column - me.preColumn) * Abs(row - me.preRow) == 2
  }

  /** Chebyshev distance one, written as the source writes it. */
  predicate KingStepShape(me: Piece, column: int, row: int)
  {
    Abs(column - me.preColumn) + Abs(row - me.preRow) == 1 ||
    Abs(column - me.preColumn) * Abs(row - me.preRow) == 1
  }

  /** The common entry test of every kind except the knight and the king. */
  predicate Entry(me: Piece, column: int, row: int)
  {
    IsWithinBoard(column, row) && !IsSameSquare(me, column, row)
  }

  predicate RookRule(ps: seq<Piece>, me: Piece, column: int, row: int)
  {
    Entry(me, column, row) && RookShape(me, column, row) &&
    DestUsable(ps, me, column, row) &&
    StraightClear(ps, me.preColumn, me.preRow, column, row)
  }

  predicate BishopRule(ps: seq<Piece>, me: Piece, column: int, row: int)
  {
    Entry(me, column, row) && BishopShape(me, column, row) &&
    DestUsable(ps, me, column, row) &&
    DiagonalClear(ps, me.preColumn, me.preRow, column, row)
  }

  predicate QueenRule(ps: seq<Piece>, me: Piece, column: int, row: int)
  {
    Entry(me, column, row) && DestUsable(ps, me, column, row) &&
    ((RookShape(me, column, row) && StraightClear(ps, me.preColumn, me.preRow, column, row)) ||
     (BishopShape(me, column, row) && DiagonalClear(ps, me.preColumn, me.preRow, column, row)))
  }

  predicate KnightRule(ps: seq<Piece>, me: Piece, column: int, row: int)
  {
    IsWithinBoard(column, row) && KnightShape(me, column, row) && DestUsable(ps, me, column, row)
  }

  /** Entry `k` is a pawn-like piece that may be taken en passant on
      (column, row): it stands there with its two-step flag set. */
  predicate EnPassantVictim(ps: seq<Piece>, k: int, column: int, row: int)
  {
    0 <= k < |ps| && At(ps[k], column, row) && ps[k].isTwoStepped
  }

  predicate IsFirstEnPassantVictim(ps: seq<Piece>, k: int, column: int, row: int)
  {
    EnPassantVictim(ps, k, column, row) &&
    forall j :: 0 <= j < k ==> !EnPassantVictim(ps, j, column, row)
  }

  predicate PawnRule(ps: seq<Piece>, me: Piece, column: int, row: int)
  {
    var d := Forward(me.color);
    Entry(me, column, row) &&
    ( (column == me.preColumn && row == me.preRow + d && NoOtherAt(ps, me, column, row))
    || (column == me.preColumn && row == me.preRow + 2 * d && NoOtherAt(ps, me, column, row) &&
        !me.isMoved && StraightClear(ps, me.preColumn, me.preRow, column, row))
    || (Abs(column - me.preColumn) == 1 && row == me.preRow + d &&
        !NoOtherAt(ps, me, column, row) && DestUsable(ps, me, column, row))
    || (Abs(column - me.preColumn) == 1 && row == me.preRow + d &&
        exists k :: 0 <= k < |ps| && EnPassantVictim(ps, k, column, me.preRow)))
  }

  /** A partner for king-side castling: an unmoved piece three columns to
      the right of the king's origin. */
  predicate KingSideRook(ps: seq<Piece>, me: Piece, j: int)
  {
    0 <= j < |ps| && At(ps[j], me.preColumn + 3, me.preRow) && !ps[j].isMoved
  }

  predicate IsFirstKingSideRook(ps: seq<Piece>, me: Piece, j: int)
  {
    KingSideRook(ps, me, j) && forall i :: 0 <= i < j ==> !KingSideRook(ps, me, i)
  }

  /** A partner for queen-side castling: an unmoved piece four columns to
      the left, met in the list before any piece three columns to the left. */
  predicate QueenSideRook(ps: seq<Piece>, me: Piece, j: int)
  {
    0 <= j < |ps| && At(ps[j], me.preColumn - 4, me.preRow) && !ps[j].isMoved &&
    forall k :: 0 <= k < j ==> !At(ps[k], me.preColumn - 3, me.preRow)
  }

  predicate IsFirstQueenSideRook(ps: seq<Piece>, me: Piece, j: int)
  {
    QueenSideRook(ps, me, j) && forall i :: 0 <= i < j ==> !QueenSideRook(ps, me, i)
  }

  /** Castling as the source decides it: the king has not moved, the target
      is two columns along the origin row, the straight path is clear, and
      a partner exists. The target square itself is never inspected. */
  predicate CastleRule(ps: seq<Piece>, me: Piece, column: int, row: int)
  {
    !me.isMoved && row == me.preRow &&
    StraightClear(ps, me.preColumn, me.preRow, column, row) &&
    ((column == me.preColumn + 2 && exists j :: 0 <= j < |ps| && KingSideRook(ps, me, j)) ||
     (column == me.preColumn - 2 && exists j :: 0 <= j < |ps| && QueenSideRook(ps, me, j)))
  }

  /** The capture a legal move records: nothing when nobody else stands on
      the target, otherwise the first other occupant, which is an enemy. */
  predicate CaptureOnTarget(ps: seq<Piece>, me: Piece, column: int, row: int, hit: Option<nat>)
  {
    (hit.None? ==> NoOtherAt(ps, me, column, row)) &&
    (hit.Some? ==> exists k :: 0 <= k < |ps| && IsFirstOtherAt(ps, me, k, column, row) &&
                              ps[k].id == hit.value && ps[k].color != me.color)
  }

  /** The capture a refused straight slide records: a piece standing on a
      square the straight scan looks at. */
  predicate StraightBlocker(ps: seq<Piece>, me: Piece, column: int, row: int, hit: Option<nat>)
  {
    hit.Some? &&
    exists k :: 0 <= k < |ps| && ps[k].id == hit.value &&
      StraightBetween(me.preColumn, me.preRow, column, row, ps[k].column, ps[k].row)
  }

  /** The capture a refused diagonal slide records: a piece standing on a
      square the diagonal scan looks at. */
  predicate DiagonalBlocker(ps: seq<Piece>, me: Piece, column: int, row: int, hit: Option<nat>)
  {
    hit.Some? &&
    exists k :: 0 <= k < |ps| && ps[k].id == hit.value &&
      DiagonalBetween(me.preColumn, me.preRow, column, row, ps[k].column, ps[k].row)
  }

  /** The first other piece on the target, whatever its colour, or nothing
      when the target holds no other piece. */
  predicate OccupantOnTarget(ps: seq<Piece>, me: Piece, column: int, row: int, hit: Option<nat>)
  {
    (hit.None? <==> NoOtherAt(ps, me, column, row)) &&
    (hit.Some? ==> exists k :: 0 <= k < |ps| && IsFirstOtherAt(ps, me, k, column, row) &&
                              ps[k].id == hit.value)
  }

  /** A pawn's two-step from an unmoved state onto an empty square whose
      straight path holds a piece. */
  predicate PawnTwoStepBlocked(ps: seq<Piece>, me: Piece, column: int, row: int)
  {
    column == me.preColumn && row == me.preRow + 2 * Forward(me.color) &&
    NoOtherAt(ps, me, column, row) && !me.isMoved &&
    !StraightClear(ps, me.preColumn, me.preRow, column, row)
  }

  /** A castling attempt by an unmoved king, two columns along its row,
      whose straight path holds a piece. */
  predicate CastlePathBlocked(ps: seq<Piece>, me: Piece, column: int, row: int)
  {
    !me.isMoved && row == me.preRow &&
    (column == me.preColumn + 2 || column == me.preColumn - 2) &&
    !StraightClear(ps, me.preColumn, me.preRow, column, row)
  }
}

=== FILE: scenarios.dfy ===
/** Concrete positions that show how the legality engine and the
    controller behave, including behaviours of the source that a reader of
    the rules of chess would not expect. */
module Scenarios {
  import opened Base
  import opened Pieces
  import opened Moves
  import opened Controller

  /** A white pawn that moved to (4,3), dragged to (3,2), beside a black
      pawn that has just double-stepped to (3,3). */
  function EnPassantBoard(): seq<Piece>
  {
    [NewPiece(0, Pawn, White, 4, 3).(isMoved := true, column := 3, row := 2),
     NewPiece(1, Pawn, Black, 3, 3).(isMoved := true, isTwoStepped := true)]
  }

  /** The en-passant capture is legal and takes the double-stepped pawn. */
  lemma EnPassantExample()
    ensures var ps := EnPassantBoard();
            PawnMove(ps, ps[0], 3, 2) == Verdict(true, Some(1), None)
  {
    var ps := EnPassantBoard();
    assert FirstEnPassant(ps, 3, 3, 0) == Some(1);
  }

  /** The en-passant branch checks neither the colour of the piece beside
      the pawn nor the target square: with a white knight on (3,2) the
      capture is still legal, and the pawn lands on its own knight. */
  lemma EnPassantOntoOwnPiece()
    ensures var ps := EnPassantBoard() + [NewPiece(2, Knight, White, 3, 2)];
            PawnMove(ps, ps[0], 3, 2) == Verdict(true, Some(1), None) &&
            ps[2].color == ps[0].color && At(ps[2], 3, 2)
  {
    var ps := EnPassantBoard() + [NewPiece(2, Knight, White, 3, 2)];
    assert GetHittingPiece(ps, ps[0], 3, 2) == Some(2) by {
      assert Pieces.IsFirstOtherAt(ps, ps[0], 2, 3, 2);
    }
    assert FirstEnPassant(ps, 3, 3, 0) == Some(1);
  }

  /** The white king on its home square dragged two columns right, and
      the king-side rook; `extra` stands for further pieces. */
  function CastlingBoard(extra: seq<Piece>): seq<Piece>
  {
    [NewPiece(0, King, White, 4, 7).(column := 6), NewPiece(1, Rook, White, 7, 7)] + extra
  }

  /** King-side castling is legal with the rook as partner, whatever the
      fuel, and `checkCastling` then puts the rook on column 5. */
  lemma CastlingExample(fuel: nat)
    ensures var ps := CastlingBoard([]);
            CanMove(ps, ps[0], 6, 7, fuel) == Some(Verdict(true, None, Some(1))) &&
            CheckCastling(map[1 := ps[1]], Some(1))[1] == ps[1].(column := 5)
  {
    var ps := CastlingBoard([]);
    assert KingSidePartner(ps, ps[0], 0) == Some(1) by {
      assert !KingSidePartner(ps, ps[0], 0).None? by {
        assert Rules.KingSideRook(ps, ps[0], 1);
      }
    }
  }

  /** Castling never looks at the target square: with a white knight on
      (6,7) the king still castles onto the knight's square. */
  lemma CastlingOntoOccupiedSquare(fuel: nat)
    ensures var ps := CastlingBoard([NewPiece(2, Knight, White, 6, 7)]);
            CanMove(ps, ps[0], 6, 7, fuel) == Some(Verdict(true, None, Some(1))) &&
            ps[2].color == ps[0].color && At(ps[2], 6, 7)
  {
    var ps := CastlingBoard([NewPiece(2, Knight, White, 6, 7)]);
    assert KingSidePartner(ps, ps[0], 0) == Some(1) by {
      assert !KingSidePartner(ps, ps[0], 0).None? by {
        assert Rules.KingSideRook(ps, ps[0], 1);
      }
    }
  }

  /** A castling attempt blocked by the king's own bishop on (5,7) is
      refused, but the bishop is left behind as the king's capture. */
  lemma BlockedCastlingRecordsOwnBishop(fuel: nat)
    ensures var ps := CastlingBoard([NewPiece(2, Bishop, White, 5, 7)]);
            CanMove(ps, ps[0], 6, 7, fuel) == Some(Verdict(false, Some(2), None))
  {
    var ps := CastlingBoard([NewPiece(2, Bishop, White, 5, 7)]);
    assert Paths.ScanStraight(ps, 4, 7, 6, 7) == Some(2) by {
      assert !Paths.StraightClear(ps, 4, 7, 6, 7) by {
        assert Paths.StraightBetween(4, 7, 6, 7, ps[2].column, ps[2].row);
      }
    }
  }

  /** Once the bishop has left (to (3,5), say) and the king castles, the
      verdict still carries that stale capture, so the frame removes the
      king's own bishop from the board along with the castling. */
  lemma StaleCaptureRemovesOwnBishop(fuel: nat)
    ensures var ps := CastlingBoard([NewPiece(2, Bishop, White, 3, 5)]);
            var king := ps[0].(hit := Some(2));
            var v := CanMove(ps[0 := king], king, 6, 7, fuel);
            v == Some(Verdict(true, Some(2), Some(1))) &&
            DropCaptured([0, 1, 2], v.value.hit) == [0, 1]
  {
    var ps := CastlingBoard([NewPiece(2, Bishop, White, 3, 5)]);
    var king := ps[0].(hit := Some(2));
    var qs := ps[0 := king];
    assert KingSidePartner(qs, king, 0) == Some(1) by {
      assert !KingSidePartner(qs, king, 0).None? by {
        assert Rules.KingSideRook(qs, king, 1);
      }
    }
    assert Paths.ScanStraight(qs, 4, 7, 6, 7).None? by {
      assert Paths.StraightClear(qs, 4, 7, 6, 7);
    }
    assert CanMove(qs, king, 6, 7, fuel) == Some(Castle(qs, king, 6, 7, Some(2)));
    DropOwnBishop();
  }

  /** The capture removal of the frame above, on its own. */
  lemma DropOwnBishop()
    ensures DropCaptured([0, 1, 2], Some(2)) == [0, 1]
  {
    assert GetIndex([0, 1, 2], 2) == 2 by {
      assert [0, 1, 2][1..] == [1, 2];
      assert [1, 2][1..] == [2];
    }
    assert [0, 1, 2][..2] + [0, 1, 2][3..] == [0, 1];
  }

  /** The white king dragged from (4,4) to (4,5), in front of the black
      king on (4,6). */
  function FacingKings(): seq<Piece>
  {
    [NewPiece(0, King, White, 4, 4).(isMoved := true, row := 5),
     NewPiece(1, King, Black, 4, 6).(isMoved := true)]
  }

  /** Each king's enemy sweep asks the other king whether it can reach
      (4,5), which asks the first again: the nesting never ends, and no
      amount of fuel yields a verdict (in the source, a stack overflow). */
  lemma {:induction false} FacingKingsNeverDecide(fuel: nat)
    ensures var ps := FacingKings();
            CanMove(ps, ps[0], 4, 5, fuel).None? && CanMove(ps, ps[1], 4, 5, fuel).None?
  {
    var ps := FacingKings();
    assert IsValidSquare(ps, ps[0], 4, 5).ok by {
      assert NoOtherAt(ps, ps[0], 4, 5);
    }
    assert IsValidSquare(ps, ps[1], 4, 5).ok by {
      assert Pieces.IsFirstOtherAt(ps, ps[1], 0, 4, 5);
    }
    if fuel > 0 {
      FacingKingsNeverDecide(fuel - 1);
      assert CanMove(ps, ps[1], 4, 5, fuel - 1).None?;
      assert CanMove(ps, ps[0], 4, 5, fuel - 1).None?;
    }
    assert Attacked(ps, ps[0], 4, 5, fuel, 1).None?;
    assert Attacked(ps, ps[0], 4, 5, fuel, 0).None?;
    assert Attacked(ps, ps[1], 4, 5, fuel, 0).None?;
  }

  /** The flag `validSequare` is cleared only by `simulate`, so after a
      committed move it stays true. A press that picks a piece up followed
      at once by a release, with no frame in between, commits that piece
      where it stands: the board is unchanged, the piece counts as moved,
      and the turn passes. */
  lemma QuickClickPassesTurn(g: Game, press: Mouse, release: Mouse, fuel: nat)
    requires WellFormed(g) && !g.canPromotion && g.active.None? && g.castling.None?
    requires g.validSquare && g.sim == g.pieces
    requires press.pressed && !release.pressed
    requires Select(g, press).active.Some?
    requires g.heap[Select(g, press).active.value].kind != Pawn
    ensures var g1 := Update(g, press, fuel);
            g1.Some? && g1.value.active.Some? &&
            var a := g1.value.active.value;
            var g2 := Update(g1.value, release, fuel);
            g2.Some? && g2.value.pieces == g.pieces &&
            g2.value.currentColor == Opponent(g.currentColor) &&
            At(g2.value.heap[a], g.heap[a].column, g.heap[a].row) && g2.value.heap[a].isMoved
  {
    var g1 := Select(g, press);
    assert Update(g, press, fuel) == Some(g1);
    var a := g1.active.value;
    var g2 := Commit(g1);
    assert Update(g1, release, fuel) == Some(g2);
  }
}

=== FILE: setup.dfy ===
/** The starting position (`setPieces`): sixteen white pieces added first,
    then sixteen black ones, each side as eight pawns followed by rook,
    rook, knight, knight, bishop, bishop, queen and king. */
module Setup {
  import opened Base
  import opened Geometry
  import opened Pieces

  const BackKinds: seq<Kind> := [Rook, Rook, Knight, Knight, Bishop, Bishop, Queen, King]
  const BackColumns: seq<int> := [0, 7, 1, 6, 2, 5, 3, 4]

  function PawnRow(color: Color): int
  {
    if color == White then 6 else 1
  }

  function BackRow(color: Color): int
  {
    if color == White then 7 else 0
  }

  /** The i-th piece added by `setPieces`; its id is its position. */
  function InitialPiece(i: nat): Piece
    requires i < 32
  {
    var color := if i < 16 then White else Black;
    var j := if i < 16 then i else i - 16;
    if j < 8 then NewPiece(i, Pawn, color, j, PawnRow(color))
    else NewPiece(i, BackKinds[j - 8], color, BackColumns[j - 8], BackRow(color))
  }

  function SetPieces(): (ps: seq<Piece>)
    ensures |ps| == 32
    ensures forall i :: 0 <= i < 32 ==> ps[i].id == i
    ensures forall i :: 0 <= i < 32 ==>
      At(ps[i], ps[i].preColumn, ps[i].preRow) && IsWithinBoard(ps[i].column, ps[i].row) &&
      !ps[i].isMoved && !ps[i].isTwoStepped && ps[i].hit.None?
    ensures forall i :: 0 <= i < 32 ==>
      (ps[i].color == White <==> i < 16) &&
      (ps[i].color == White ==> ps[i].row == 6 || ps[i].row == 7) &&
      (ps[i].color == Black ==> ps[i].row == 0 || ps[i].row == 1)
    ensures forall i :: 0 <= i < 32 ==> (ps[i].kind == Pawn <==> ps[i].row == 6 || ps[i].row == 1)
    ensures forall c :: 0 <= c < 8 ==> ps[c].kind == Pawn && At(ps[c], c, 6)
    ensures forall i :: 16 <= i < 24 ==> ps[i].kind == Pawn && At(ps[i], i - 16, 1)
    ensures ps[15].kind == King && At(ps[15], 4, 7) && ps[31].kind == King && At(ps[31], 4, 0)
  {
    seq(32, i requires 0 <= i < 32 => InitialPiece(i))
  }

  /** No two starting pieces share a square. */
  lemma InitialSquaresDistinct()
    ensures forall i, j :: 0 <= i < j < 32 ==>
      !At(SetPieces()[j], SetPieces()[i].column, SetPieces()[i].row)
  {
    var ps := SetPieces();
    forall i, j | 0 <= i < j < 32
      ensures !At(ps[j], ps[i].column, ps[i].row)
    {
      var a := if i < 16 then i else i - 16;
      var b := if j < 16 then j else j - 16;
      if ps[i].row == ps[j].row && a >= 8 && b >= 8 {
        assert ps[i].column == BackColumns[a - 8] && ps[j].column == BackColumns[b - 8];
        assert a != b;
      }
    }
  }
}
